=== FILE: README.md ===
# KalTech chat: the message store and the client timeline in Dafny

This project models the two deterministic cores of the KalTech chat
application and proves properties about them.

- **The server store** (`backend/server.js`). Every HTTP route for
  messages and conversations, and every socket handler, becomes a pure
  function. It takes a `Store` and returns a `Step`: the new store, the
  JSON reply, and the socket emits, each addressed to one user or to
  everyone. The store holds the conversations and messages in Mongo's
  natural (insertion) order, the user profiles, and a counter that hands
  out fresh object ids.
- **The chat page** (`frontend/src/pages/Chat.jsx`). The socket listeners
  and local actions become a reducer over a `Client`. A `Client` holds the
  open conversation, its message list, the online set and the typing
  labels. The reducer also returns the `message_seen` emits the page
  sends. The page's derived helpers are modelled too: tick status, unread
  ids, the group-member picker and the last-seen label.

Modules, one per file:

| file | module | contents |
|---|---|---|
| base.dfy | `Base` | `Option`, `NoDup`, and order-preserving `Filter`, `Count`, `FirstIndex` with their lemmas |
| sorting.dfy | `Sorting` | stable descending sort (`sort({ k: -1 })`), `Reverse`, Mongo's `limit` |
| text.dfy | `Text` | `String.prototype.trim`, ASCII lower-casing, Node's posix `path.extname` |
| records.dfy | `Records` | conversations (after `backend/models/Conversation.js`), messages, profiles, store, events, replies, the store invariant `Valid`, lookups, and the participant fan-out |
| messages.dfy | `MessageRoutes` | send, upload, fetch, mark-read, delete, edit, react |
| conversations.dfy | `ConversationRoutes` | listing, open-direct, create-group, archive, mute |
| presence.dfy | `Presence` | `user_online`, `typing`, `disconnect` over `onlineUsers` |
| timeline.dfy | `Timeline` | the chat page reducer and its helpers |

Some things the source does as written are modelled that way on purpose:

- Mark-read does not touch `deliveredTo`.
- Edit does not refuse a tombstone.
- Delete-for-everyone by someone other than the sender falls through to
  delete-for-me.
- `deletedFor` is pushed without deduplication.
- `isMuted` ignores `until`.
- The unread count does not exclude `deletedFor`.
- Presence keeps one socket per user, so any of that user's sockets
  disconnecting takes the user offline.
- Routes that look up the conversation after writing (mark-read, delete,
  edit, react) keep the write and answer with a server error when the
  conversation is missing. Mark-read has no participant check at all.
- A conversation save bumps `updatedAt` only when the document changed
  (Mongoose `timestamps`). Send sets it explicitly.

## Model

| member | source | states |
|---|---|---|
| Text.Trim | backend/server.js:453 | the result is a slice of the input, the cut prefix and suffix are all ECMAScript white space, and the result neither starts nor ends with white space |
| Text.TrimIdempotent | backend/server.js:453 | trimming a trimmed text changes nothing |
| Text.AsciiLower | backend/server.js:502 | same length, no upper-case ASCII letter remains, every other character is kept |
| Text.ExtName | backend/server.js:502 | non-empty exactly when the last path segment, trailing slashes ignored, holds a '.' other than a lone leading one and is not ".."; then it is the segment's suffix from its last '.', with no other '.' and no '/' |
| MessageRoutes.UploadType | backend/server.js:502-506 | image, video, audio by the lower-cased extension lists in that order of precedence, file otherwise; never text or system |
| MessageRoutes.NoExtensionIsFile | backend/server.js:503-506 | a name without an extension is filed as a plain file |
| MessageRoutes.BodyText | backend/server.js:453 | a missing text becomes empty, a present one is trimmed |
| MessageRoutes.Post | backend/server.js:457-485 | the message is appended and the id counter advances; the users are kept; the conversation's record is the only one that changes, and it only gains the new `lastMessage` and `updatedAt` now; `new_message` with `isMine` false goes to every participant entry other than the sender, and to nobody else |
| MessageRoutes.Send | backend/server.js:444-491 | not found exactly when the sender is not a participant, with nothing changed; otherwise one fresh message with a new id, the trimmed text, default type text and no receipts is appended, the users are kept, the conversation only gains the new `lastMessage` and `updatedAt` now, and every other participant entry, and only those, gets `new_message` with `isMine` false |
| MessageRoutes.SendKeepsValid | backend/server.js:450-461 | sending keeps the store invariant (unique ids, messages in stored conversations, receipts without duplicates, one reaction per user) |
| MessageRoutes.SendRaisesUnread | backend/server.js:444-461 | a sent message raises every other user's unread count for the conversation by one and leaves the sender's unchanged |
| MessageRoutes.Upload | backend/server.js:494-548 | a missing file is a bad request before the membership check; otherwise like send, with the caption untrimmed, the classified type, `/uploads/` plus the stored name as URL, and the original name and size; the id counter advances, the users are kept, the conversation only gains the new `lastMessage` and `updatedAt` now, and exactly the other participant entries are told |
| MessageRoutes.UploadKeepsValid | backend/server.js:508-520 | upload keeps the store invariant |
| MessageRoutes.ReadAll | backend/server.js:553-560 | only the read list of a message changes, and a reader is appended only to a message of the conversation from someone else that lacks them |
| MessageRoutes.MarkRead | backend/server.js:551-577 | the update runs first; a missing conversation is then a server error with no emits; otherwise the reply counts the unread messages before the update, and every participant entry other than the reader, and only those, gets `messages_read` without ids |
| MessageRoutes.MarkReadClearsUnread | backend/server.js:553-560 | afterwards the viewer has no unread message in the conversation |
| MessageRoutes.MarkReadIdempotent | backend/server.js:553-573 | a second mark-read changes nothing and reports zero updated |
| MessageRoutes.MarkReadKeepsDelivery | backend/server.js:553-560 | every delivery receipt is as before |
| MessageRoutes.MarkReadKeepsValid | backend/server.js:553-560 | mark-read keeps the store invariant; no reader is recorded twice |
| MessageRoutes.PageOf | backend/server.js:398-421 | the page has as many messages as the limit allows of those selected, drawn from the selected ones without repeating any, in ascending `createdAt` order |
| MessageRoutes.PageIsListed | backend/server.js:398-409 | every message on the page is stored, belongs to the conversation, is not hidden for the viewer and is older than `before` |
| MessageRoutes.PageIsNewest | backend/server.js:404-421 | every selected message left off the page is no newer than any message on it |
| MessageRoutes.ViewFor | backend/server.js:421-437 | a tombstone reads "This message was deleted" with no file link, other messages show their stored text and link, and `isMine` holds exactly for the viewer's own messages |
| MessageRoutes.DeliverAll | backend/server.js:412-419 | only delivery lists change, and the viewer is appended only to messages of the conversation from someone else that lack them |
| MessageRoutes.FetchMessages | backend/server.js:392-437 | not found exactly for a non-participant; otherwise the reply is the page as it was before the delivery update, and the update covers the whole conversation, not only the page |
| MessageRoutes.FetchDeliversOnce | backend/server.js:412-419 | afterwards the viewer occurs exactly once in the delivery list of every message of the conversation sent by someone else |
| MessageRoutes.FetchKeepsValid | backend/server.js:412-419 | fetch keeps the store invariant |
| MessageRoutes.Delete | backend/server.js:580-608 | unknown id is not found with nothing changed; the sender's delete-for-everyone clears text and link and sets the tombstone, then answers success and tells every participant entry, and nobody else, when the conversation exists, and is a server error with no emits otherwise; every other request only appends the requester to `deletedFor`; nothing else changes |
| MessageRoutes.DeleteForEveryoneTellsAll | backend/server.js:586-598 | every participant entry, the sender included, gets `message_deleted` |
| MessageRoutes.DeleteKeepsValid | backend/server.js:580-608 | delete keeps the store invariant |
| MessageRoutes.DeleteForMeHidesFromFetch | backend/server.js:599-601 | after delete-for-me the requester's fetch never returns the message |
| MessageRoutes.Edit | backend/server.js:611-635 | not found with nothing changed exactly when no message has that id and sender; otherwise only that message's text, edited mark and edit time change, and then success with `message_edited` to every participant entry, and nobody else, when the conversation exists, a server error with no emits when it does not |
| MessageRoutes.EditKeepsValid | backend/server.js:614-619 | edit keeps the store invariant |
| MessageRoutes.EditAfterDeleteRevivesText | backend/server.js:586-619 | editing a message the sender deleted for everyone stores the new text in the tombstone, while the fetched view still reads "This message was deleted" |
| MessageRoutes.Rereact | backend/server.js:645-649 | other users' reactions keep their order; with an emoji the user's one entry is last and carries it, without one the user has none; one reaction per user is preserved |
| MessageRoutes.React | backend/server.js:638-665 | unknown id is not found with nothing changed; otherwise only the message's reactions change, a missing conversation is then a server error with no emits, and otherwise every participant entry, and nobody else, gets the whole new list |
| MessageRoutes.ReactKeepsValid | backend/server.js:645-650 | react keeps the store invariant |
| MessageRoutes.ReactTwiceKeepsLatest | backend/server.js:645-649 | two reactions by one user leave one entry, the second, last in the list, with others unchanged |
| Records.SaveConv | backend/models/Conversation.js:55 | a save changes `updatedAt` to now exactly when the document changed |
| Records.Populate | backend/server.js:214-218 | the populated participants are the ids that name a stored user, each one a listed id, and every listed id with a stored user is kept |
| Records.FindMember | backend/server.js:395 | finds a conversation with that id listing the user, and none exactly when there is no such conversation |
| Records.FanOut | backend/server.js:481-485 | one emit of the event to each participant entry other than the excluded one, and to all entries when none is excluded |
| Sorting.SortDesc | backend/server.js:408 | the result is a permutation of the input ordered by descending key |
| Sorting.LimitCount | backend/server.js:409 | a zero limit keeps all; otherwise the count is at most the limit's absolute value and at most what is available, and equals one of them |
| Sorting.ReverseTakeLargest | backend/server.js:408-421 | an element cut off by the limit is no larger than any kept one after the reversal |
| ConversationRoutes.OtherMember | backend/server.js:235 | the first populated participant that is not the viewer, and none exactly when every participant is the viewer or a missing user |
| ConversationRoutes.PreviewOf | backend/server.js:251-256 | a preview exists exactly when the last-message reference names a stored message, and copies its text, type, sender and time |
| ConversationRoutes.SummaryOf | backend/server.js:220-260 | a group shows its own name and avatar and is never online; a private chat shows its other member's avatar, online flag and last-seen time, and their name unless it is empty, in which case "Unknown"; with no other member it shows "Unknown", no avatar and offline; the unread count, mute flag, preview and populated participants are the ones defined by the route |
| ConversationRoutes.ShownConvs | backend/server.js:205-218 | the selected conversations, each exactly as often as in the store, most recently updated first |
| ConversationRoutes.ListConversations | backend/server.js:203-268 | one entry per selected conversation, each the summary of the conversation at the same place, most recently updated first |
| ConversationRoutes.ShownConvsContents | backend/server.js:205-218 | the query selects exactly the viewer's conversations with the requested archive state |
| ConversationRoutes.ListingContents | backend/server.js:214-262 | every selected conversation has its summary in the listing, and every entry summarises a selected conversation |
| ConversationRoutes.ShownPartition | backend/server.js:208-212 | with unique ids, a conversation of the viewer is selected for exactly one value of the archive flag |
| ConversationRoutes.ArchivePartition | backend/server.js:208-212 | each of the viewer's conversations is in the archived listing exactly when the viewer archived it, and in the other listing otherwise |
| ConversationRoutes.ListedUnreadAfterMarkRead | backend/server.js:221-225 | right after mark-read the entry shows zero unread |
| ConversationRoutes.OpenDirect | backend/server.js:270-304 | a missing participant id is a bad request; otherwise the store is unchanged exactly when a private two-member chat with both users exists, and a new one with a fresh id is appended otherwise; for two different users the reply names the other one as `participantId` when their profile exists; the reply carries that member's name, avatar, online flag and last-seen time exactly when it names one |
| ConversationRoutes.OpenDirectKeepsValid | backend/server.js:283-290 | open-direct keeps the store invariant |
| ConversationRoutes.OpenDirectTwice | backend/server.js:276-290 | opening again, from either side, finds the same conversation and creates nothing |
| ConversationRoutes.CreateGroup | backend/server.js:307-345 | an empty name or member list is a bad request; otherwise a group with the requester first and sole admin, no avatar, no mutes or archives, created and updated now, plus one system message "<name> created group "<group>"", with `lastMessage` unset, the users kept and no emits |
| ConversationRoutes.CreateGroupKeepsValid | backend/server.js:315-332 | group creation keeps the store invariant |
| ConversationRoutes.NewGroupUnreadForOthers | backend/server.js:326-332 | the opening system message counts as one unread message for everyone but the creator |
| ConversationRoutes.ArchivedAfter | backend/server.js:353-358 | the user's membership flips and no other user's changes |
| ConversationRoutes.ToggleArchive | backend/server.js:348-364 | unknown id is not found with nothing changed; otherwise only the conversation's archive list changes, with `updatedAt` bumped by the save, and the reply is the new state |
| ConversationRoutes.ToggleArchiveMovesListing | backend/server.js:353-360 | after a toggle the conversation is in the listing the reply names and not in the other |
| ConversationRoutes.ToggleArchiveTwice | backend/server.js:353-360 | two toggles restore who has archived the conversation, and the exact list when the user had not archived it |
| ConversationRoutes.MutedAfter | backend/server.js:373-380 | other users' entries are kept in order; a positive duration leaves one entry for the user, last, until now plus that many hours; otherwise none |
| ConversationRoutes.Mute | backend/server.js:367-386 | unknown id is not found with nothing changed; otherwise only the mute list changes, with `updatedAt` bumped by the save when the list changed, and the reply says whether the duration was positive |
| ConversationRoutes.MuteShowsInListing | backend/server.js:373-382 | the listing then reports the conversation muted exactly when the duration was positive, and no other user's mute changes |
| ConversationRoutes.MutedOthers | backend/server.js:373 | two mute lists with the same other-user entries agree on any other user's mute |
| ConversationRoutes.ToggleArchiveKeepsValid | backend/server.js:348-364 | archive keeps the store invariant |
| ConversationRoutes.MuteKeepsValid | backend/server.js:367-386 | mute keeps the store invariant |
| Presence.SetStatus | backend/server.js:681 | only a known user's online flag and last-seen time change |
| Presence.UserOnline | backend/server.js:676-683 | the socket becomes the user's only socket, the socket is bound to the user, and everyone is told the user is online |
| Presence.Typing | backend/server.js:685-698 | nothing for an unknown conversation; otherwise each participant entry other than the socket's user, and nobody else, gets `user_typing` without a name |
| Presence.Disconnect | backend/server.js:700-706 | an unbound socket changes nothing; a bound one removes its user from the map whatever socket the map held, forgets the closed socket, marks them offline and tells everyone |
| Presence.SecondSocketLost | backend/server.js:676-706 | a user online on two sockets is taken offline when the first one closes |
| Presence.OnlineThenOffline | backend/server.js:676-706 | connect then disconnect leaves the user offline with the disconnect time as last seen and every other user as before |
| Timeline.OnOnlineUsers | frontend/src/pages/Chat.jsx:138-140 | the online set becomes exactly the listed users |
| Timeline.OnlineUsersThenStatus | frontend/src/pages/Chat.jsx:138-152 | a status event after a full list gives the list with the user added, or with the user removed as the member picker removes one |
| Timeline.OnUserStatus | frontend/src/pages/Chat.jsx:143-152 | the user is in the set exactly when reported online; no other member changes |
| Timeline.UserStatusCommutes | frontend/src/pages/Chat.jsx:143-152 | status events for two different users commute |
| Timeline.OnTyping | frontend/src/pages/Chat.jsx:194-199 | the conversation's label is set while typing, to the name or "Someone", and cleared otherwise; other labels are kept |
| Timeline.TypingShowsSomeone | frontend/src/pages/Chat.jsx:194-199 | every typing label a member gets from the server reads "Someone", since the server drops the name |
| Timeline.OnNewMessage | frontend/src/pages/Chat.jsx:171-187 | appended only in the selected conversation and only when its id is not yet shown; in the selected conversation it is also reported seen |
| Timeline.NewMessageIdempotent | frontend/src/pages/Chat.jsx:174-180 | applying the same event twice equals applying it once |
| Timeline.NewMessageKeepsIdsUnique | frontend/src/pages/Chat.jsx:174-180 | a list without repeated ids keeps that property |
| Timeline.ReadMark | frontend/src/pages/Chat.jsx:204-207 | only own messages the event covers gain the reader's receipt; nothing else in them changes |
| Timeline.OnMessagesRead | frontend/src/pages/Chat.jsx:202-210 | in the selected conversation each message is updated by the read mark and the length is kept; otherwise nothing changes |
| Timeline.OnMessageDeleted | frontend/src/pages/Chat.jsx:214-220 | in the selected conversation the matching message becomes a tombstone in place and every other message is unchanged |
| Timeline.OnMessageEdited | frontend/src/pages/Chat.jsx:223-229 | the matching message gets the new text and the edited mark; others are unchanged |
| Timeline.MessageEditedIdempotent | frontend/src/pages/Chat.jsx:223-229 | applying the same event twice equals applying it once, and the list keeps its ids in place |
| Timeline.EditedAgreesWithFetch | frontend/src/pages/Chat.jsx:223-229 | a live edit of an undeleted message shows what a fetch after the server's edit shows; on a tombstone the live copy shows the new text while a fetch shows the deleted text |
| Timeline.OnMessageReaction | frontend/src/pages/Chat.jsx:232-238 | the matching message's reactions are replaced by the event's list; others are unchanged |
| Timeline.MessageReactionIdempotent | frontend/src/pages/Chat.jsx:232-238 | applying the same event twice equals applying it once |
| Timeline.OnMediaViewed | frontend/src/pages/Chat.jsx:241-245 | the matching message is marked viewed whichever conversation is open |
| Timeline.MediaViewedIdempotent | frontend/src/pages/Chat.jsx:241-245 | applying the same event twice equals applying it once, and the list keeps its ids in place |
| Timeline.OnMediaExpired | frontend/src/pages/Chat.jsx:248-254 | in the selected conversation the matching message becomes a tombstone reading "Media expired" |
| Timeline.MediaExpiredIdempotent | frontend/src/pages/Chat.jsx:248-254 | applying the same event twice equals applying it once, and the list keeps its ids in place |
| Timeline.Receive | frontend/src/pages/Chat.jsx:136-254 | each event touches only its own part of the page state, and only `new_message` reports anything seen |
| Timeline.LocalDelete | frontend/src/pages/Chat.jsx:399-416 | an unreachable server changes nothing; delete-for-everyone tombstones in place keeping the length; delete-for-me drops every copy of the id and keeps every other message |
| Timeline.LocalDeleteKeepsOrder | frontend/src/pages/Chat.jsx:405-411 | delete-for-me keeps the remaining messages in their order |
| Timeline.LocalSend | frontend/src/pages/Chat.jsx:341-366 | a send whose reply arrives before anything else happens: with blank text, no open conversation, or a request or body that fails, nothing changes and nothing is emitted; otherwise the server's reply is appended and typing stops for the open conversation |
| Timeline.SentNotDuplicated | frontend/src/pages/Chat.jsx:353 | after the sender's copy is appended, a `new_message` with the same id adds nothing |
| Timeline.SendTarget | frontend/src/pages/Chat.jsx:341-344 | a request is made exactly when the text is not blank and a conversation is open, and it goes to the open conversation |
| Timeline.SendSettled | frontend/src/pages/Chat.jsx:345-365 | a failed request or body changes nothing and emits nothing; otherwise the reply is appended to the list shown when it settles, and typing stops for the conversation the message went to |
| Timeline.SelectConversation | frontend/src/pages/Chat.jsx:279-283 | the conversation becomes the open one with an empty list; nothing else changes |
| Timeline.SendSettlesAfterSwitch | frontend/src/pages/Chat.jsx:279-283 | a send reply settling after the user opened another conversation lands on that conversation's list, while typing stops for the one the message went to |
| Timeline.LocalUpload | frontend/src/pages/Chat.jsx:369-390 | an upload whose reply arrives before anything else happens: with no file, no open conversation, or a request or body that fails, nothing changes; otherwise the server's reply is appended |
| Timeline.UploadTarget | frontend/src/pages/Chat.jsx:369-372 | a request is made exactly when a file is chosen and a conversation is open, and it goes to the open conversation |
| Timeline.UploadSettled | frontend/src/pages/Chat.jsx:379-388 | a failed request or body changes nothing; otherwise the reply is appended to the list shown when it settles |
| Timeline.UploadNotDuplicated | frontend/src/pages/Chat.jsx:384 | after the uploader's copy is appended, a `new_message` with the same id adds nothing |
| Timeline.UnreadIds | frontend/src/pages/Chat.jsx:89 | the ids, in page order, of exactly the loaded messages the user did not send and has not read |
| Timeline.Loaded | frontend/src/pages/Chat.jsx:81-96 | a failed request or body changes nothing and reports nothing; otherwise the list becomes the page, and a seen report is sent exactly when some loaded message is unread |
| Timeline.SelectThenLoad | frontend/src/pages/Chat.jsx:81-96 | opening a conversation shows its fetched page, or an empty list when the fetch fails |
| Timeline.NothingSeenAfterMarkRead | frontend/src/pages/Chat.jsx:86-91 | a page fetched right after the user's mark-read reports nothing seen |
| Timeline.TickStatus | frontend/src/pages/Chat.jsx:768-777 | no ticks on others' or deleted messages; read when any read receipt exists, else delivered when any delivery receipt exists, else sent |
| Timeline.TickMonotone | frontend/src/pages/Chat.jsx:768-777 | appending receipts never lowers a tick |
| Timeline.MessagesReadRaisesTicks | frontend/src/pages/Chat.jsx:202-210 | a `messages_read` event never lowers a tick and turns every own undeleted message it covers to read |
| Timeline.MarkReadTurnsTicksRead | backend/server.js:562-571 | the server's mark-read sends each other member the event that turns their own ticks in that open conversation to read |
| Timeline.TombstonesAgree | frontend/src/pages/Chat.jsx:214-220 | a deleted message reads the same whether it arrived by fetch or by the delete event |
| Timeline.ToggleMember | frontend/src/pages/Chat.jsx:595 | the clicked user's membership flips, nobody else's changes, and a new pick goes last |
| Timeline.RemoveMember | frontend/src/pages/Chat.jsx:588 | the user is gone, everyone else stays, and a list without repeats keeps that property |
| Timeline.ToggleMemberTwice | frontend/src/pages/Chat.jsx:595 | two clicks restore who is picked, and the exact list when the user was not picked |
| Timeline.LastSeenLabel | frontend/src/pages/Chat.jsx:453-461 | none without a time; "just now" under a minute; whole minutes 1 to 59 under an hour; "today" under a day; a date otherwise |
| Timeline.LastSeenMonotone | frontend/src/pages/Chat.jsx:457-460 | as time passes the label never moves to a finer bucket and the minute count never drops |

## Left out

- Authentication: the JWT middleware, bcrypt and the register and login routes. Handlers take the caller's user id, and group creation takes the caller's name, as trusted inputs.
- Mongo and Mongoose themselves. Queries become filters over sequences, and `populate` becomes dropping references to missing users. A sender that no longer exists is assumed away: the original would fail while building the fetch reply. `parseInt` of a non-numeric `limit` is not modelled; the limit is an integer.
- backend/models/Message.js and backend/models/User.js are not part of this model. Message defaults (no receipts, not deleted, not edited) and the Message fields follow what the routes read and write.
- Multer disk storage and file naming. An upload is given as original name, stored name and size. A file stored before a rejected membership check stays on disk; that is not modelled.
- Socket transport, rooms and delivery order. Emits are returned as a list. The client's `message_seen` is only recorded as an outgoing emit, since the server has no handler for it. The server never emits `online_users`, `media_viewed` or `media_expired`; the client handlers for them are modelled anyway.
- Timers and clocks. The typing debounce is left out, and "now" is an input.
- Locale formatting: clock and date texts, date separators and file sizes. The last-seen label keeps the bucket and the minute count only.
- JSX rendering and UI state: menus, pickers, sidebar tabs, themes, routing, `Logo.jsx`, `tailwind.config.js`.
- Timeline.OnUserStatus: the `user_status` handler also updates the user list, the conversation list and the selected conversation header (Chat.jsx:154-167); only the online set is modelled.
- Timeline.OnNewMessage: the `fetchConversations()` refetch after each event is left out.
- MessageRoutes.Edit: a request without `text` assigns `undefined`, which Mongoose saves as an unset field; the model's text is always a string.
- Timeline.Loaded: any body that parses as JSON replaces the list. A JSON error object (the not-found or server-error reply) would replace the list with a non-array, and the next render fails on it; the model only takes a page or a failed body. The socket is taken to be connected when the seen report is sent.
- Timeline.LocalSend: any body that parses as JSON is appended. A JSON error body, such as the not-found reply, would be appended as a message too; the model takes a parsed body as a given message view. The socket is taken to be connected when the typing stop is emitted.
- Timeline.LocalUpload: a file over multer's 50 MB limit (backend/server.js:55) is answered by the framework's default HTML error page; the model covers it as a body that fails to parse (`None`). A JSON error body is appended as in LocalSend.
- ConversationRoutes.Mute: a fractional number of hours is not modelled; the duration is an integer.
- Text.AsciiLower: `toLowerCase` also folds non-ASCII letters. The extension lists are ASCII, so only non-ASCII extensions that lower-case onto them would differ.
- Sorting.SortDesc: Mongo does not promise an order among equal keys. The model keeps store order for ties.
- Pinned messages, avatars and profile routes, the user list, and disappearing media views have no route among the modelled ones.

=== FILE: base.dfy ===
/** Vocabulary shared by the server handlers and the client reducer:
    optional values and the order-preserving sequence operations the
    original code writes with Array.prototype.filter/find/some. */
module Base {

  datatype Option<+T> = None | Some(value: T)

  /** No element occurs twice. */
  predicate NoDup<T(==)>(s: seq<T>) {
    forall i, j :: 0 <= i < j < |s| ==> s[i] != s[j]
  }

  /** The elements of `s` that satisfy `p`, in their original order. */
  function Filter<T>(s: seq<T>, p: T -> bool): (r: seq<T>)
    ensures |r| <= |s|
    ensures forall i :: 0 <= i < |r| ==> p(r[i])
  {
    if |s| == 0 then []
    else
      assert s == [s[0]] + s[1..];
      (if p(s[0]) then [s[0]] else []) + Filter(s[1..], p)
  }

  /** Whatever the filter keeps comes from the input and passes the test. */
  lemma FilterMember<T>(s: seq<T>, p: T -> bool, x: T)
    requires x in multiset(Filter(s, p))
    ensures x in multiset(s) && p(x)
  {
    FilterSub(s, p);
    var f := Filter(s, p);
    var q :| 0 <= q < |f| && f[q] == x;
  }

  /** Filter keeps exactly the elements of `s` that satisfy `p`: each
      kept element comes from `s`, and each satisfying element is kept. */
  lemma FilterContents<T>(s: seq<T>, p: T -> bool)
    ensures multiset(Filter(s, p)) <= multiset(s)
    ensures forall i :: 0 <= i < |s| && p(s[i]) ==> s[i] in multiset(Filter(s, p))
  {
    FilterSub(s, p);
    forall i | 0 <= i < |s| && p(s[i]) ensures s[i] in multiset(Filter(s, p)) {
      FilterKeeps(s, p, i);
    }
  }

  /** Everything Filter keeps comes from `s`. */
  lemma {:induction false} FilterSub<T>(s: seq<T>, p: T -> bool)
    ensures multiset(Filter(s, p)) <= multiset(s)
  {
    if |s| > 0 {
      FilterSub(s[1..], p);
      var h := if p(s[0]) then [s[0]] else [];
      assert Filter(s, p) == h + Filter(s[1..], p);
      assert s == [s[0]] + s[1..];
    }
  }

  /** Filter keeps the element at `i` when it satisfies `p`. */
  lemma {:induction false} FilterKeeps<T>(s: seq<T>, p: T -> bool, i: nat)
    requires i < |s| && p(s[i])
    ensures s[i] in multiset(Filter(s, p))
  {
    var h := if p(s[0]) then [s[0]] else [];
    assert Filter(s, p) == h + Filter(s[1..], p);
    if i > 0 {
      FilterKeeps(s[1..], p, i - 1);
      assert s[1..][i - 1] == s[i];
    }
  }

  /** Number of elements of `s` that satisfy `p` (a countDocuments query). */
  function Count<T>(s: seq<T>, p: T -> bool): nat {
    |Filter(s, p)|
  }

  /** Index of the first element satisfying `p` (Array.prototype.findIndex). */
  function FirstIndex<T>(s: seq<T>, p: T -> bool): (r: Option<nat>)
    ensures r.Some? ==> r.value < |s| && p(s[r.value])
    ensures r.Some? ==> forall j :: 0 <= j < r.value ==> !p(s[j])
    ensures r.None? <==> forall j :: 0 <= j < |s| ==> !p(s[j])
  {
    if |s| == 0 then None
    else if p(s[0]) then Some(0)
    else match FirstIndex(s[1..], p)
      case None => None
      case Some(k) => Some(k + 1)
  }

  /** Two sequences whose elements agree on `p` position by position have
      the same first match. */
  lemma {:induction false} FirstIndexPointwise<T>(s: seq<T>, t: seq<T>, p: T -> bool)
    requires |s| == |t|
    requires forall i :: 0 <= i < |s| ==> (p(s[i]) <==> p(t[i]))
    ensures FirstIndex(s, p) == FirstIndex(t, p)
  {
    if |s| > 0 && !p(s[0]) {
      FirstIndexPointwise(s[1..], t[1..], p);
    }
  }

  /** Two predicates that agree everywhere find the same first index. */
  lemma FirstIndexSame<T>(s: seq<T>, p: T -> bool, q: T -> bool)
    requires forall x :: p(x) == q(x)
    ensures FirstIndex(s, p) == FirstIndex(s, q)
  {
    if FirstIndex(s, p) != FirstIndex(s, q) {
      match FirstIndex(s, p)
      case None =>
      case Some(k) =>
    }
  }

  /** When nothing in `s` matches, the first match of `s + [x]` is `x`. */
  lemma {:induction false} FirstIndexAppend<T>(s: seq<T>, x: T, p: T -> bool)
    requires FirstIndex(s, p).None? && p(x)
    ensures FirstIndex(s + [x], p) == Some(|s|)
  {
    if |s| == 0 {
      assert s + [x] == [x];
    } else {
      assert (s + [x])[1..] == s[1..] + [x];
      FirstIndexAppend(s[1..], x, p);
    }
  }

  /** Filtering a sequence extended by one element. */
  lemma {:induction false} FilterSnoc<T>(s: seq<T>, x: T, p: T -> bool)
    ensures Filter(s + [x], p) == Filter(s, p) + (if p(x) then [x] else [])
  {
    if |s| == 0 {
      assert s + [x] == [x];
    } else {
      var t := s + [x];
      assert t[0] == s[0];
      assert t[1..] == s[1..] + [x];
      FilterSnoc(s[1..], x, p);
      assert Filter(t, p) == (if p(s[0]) then [s[0]] else []) + Filter(t[1..], p);
    }
  }

  /** Filter keeps the relative order of what it keeps: two kept elements
      come from two positions of `s` in the same order. */
  lemma {:induction false} FilterOrder<T>(s: seq<T>, p: T -> bool, i: nat, j: nat)
    requires i < j < |Filter(s, p)|
    ensures exists a, b :: 0 <= a < b < |s| && s[a] == Filter(s, p)[i] && s[b] == Filter(s, p)[j]
  {
    var f := Filter(s, p);
    var t := Filter(s[1..], p);
    if p(s[0]) {
      assert f == [s[0]] + t;
      if i == 0 {
        assert t[j - 1] in multiset(t);
        FilterMember(s[1..], p, t[j - 1]);
        var q :| 0 <= q < |s[1..]| && s[1..][q] == t[j - 1];
        assert s[0] == f[i] && s[q + 1] == f[j];
      } else {
        FilterOrder(s[1..], p, i - 1, j - 1);
        var a, b :| 0 <= a < b < |s[1..]| && s[1..][a] == t[i - 1] && s[1..][b] == t[j - 1];
        assert s[a + 1] == f[i] && s[b + 1] == f[j];
      }
    } else {
      assert f == t;
      FilterOrder(s[1..], p, i, j);
      var a, b :| 0 <= a < b < |s[1..]| && s[1..][a] == t[i] && s[1..][b] == t[j];
      assert s[a + 1] == f[i] && s[b + 1] == f[j];
    }
  }

  /** When every element satisfies `p`, Filter keeps the whole sequence. */
  lemma {:induction false} FilterAllKept<T>(s: seq<T>, p: T -> bool)
    requires forall i :: 0 <= i < |s| ==> p(s[i])
    ensures Filter(s, p) == s
  {
    if |s| > 0 {
      FilterAllKept(s[1..], p);
      assert s == [s[0]] + s[1..];
    }
  }

  /** When no element satisfies `p`, nothing is counted. */
  lemma {:induction false} CountNone<T>(s: seq<T>, p: T -> bool)
    requires forall i :: 0 <= i < |s| ==> !p(s[i])
    ensures Count(s, p) == 0
  {
    if |s| > 0 {
      CountNone(s[1..], p);
    }
  }

  /** Two sequences that agree on `p` elementwise have the same filter
      when they also agree on the elements `p` keeps. */
  lemma {:induction false} FilterPointwise<T>(s: seq<T>, t: seq<T>, p: T -> bool, q: T -> bool)
    requires |s| == |t|
    requires forall i :: 0 <= i < |s| ==> (p(s[i]) <==> q(t[i]))
    requires forall i :: 0 <= i < |s| && p(s[i]) ==> s[i] == t[i]
    ensures Filter(s, p) == Filter(t, q)
  {
    if |s| > 0 {
      FilterPointwise(s[1..], t[1..], p, q);
    }
  }

  /** In a sequence without duplicates an element occurs at most once. */
  lemma {:induction false} NoDupOccurrence<T>(s: seq<T>, x: T)
    requires NoDup(s)
    ensures multiset(s)[x] <= 1
    ensures x in s ==> multiset(s)[x] == 1
  {
    if |s| > 0 {
      assert s == [s[0]] + s[1..];
      assert NoDup(s[1..]);
      NoDupOccurrence(s[1..], x);
      if x == s[0] {
        assert x !in s[1..];
      }
    }
  }

  /** Appending an element that is absent keeps a sequence free of
      duplicates. */
  lemma NoDupSnoc<T>(s: seq<T>, x: T)
    requires NoDup(s) && x !in s
    ensures NoDup(s + [x])
  {
  }

  /** Filtering twice with the same predicate is filtering once. */
  lemma {:induction false} FilterTwice<T>(s: seq<T>, p: T -> bool)
    ensures Filter(Filter(s, p), p) == Filter(s, p)
  {
    if |s| > 0 {
      FilterTwice(s[1..], p);
      var f := Filter(s[1..], p);
      if p(s[0]) {
        var g := [s[0]] + f;
        assert g[0] == s[0] && g[1..] == f;
        assert Filter(g, p) == [s[0]] + Filter(f, p);
        assert Filter(s, p) == g;
      } else {
        assert Filter(s, p) == f;
      }
    }
  }
}

=== FILE: conversations.dfy ===
/** The conversation routes of backend/server.js: the per-viewer
    conversation list, opening a direct chat, creating a group, and the
    archive and mute toggles. */
module ConversationRoutes {
  import opened Base
  import opened Records
  import opened Sorting
  import MessageRoutes

  /** Shown on a private chat whose other member is missing or nameless. */
  const UnknownName: string := "Unknown"

  /** Milliseconds per hour of mute. */
  const HourMillis: nat := 3600000

  // ---------------------------------------------------------------
  // GET /api/conversations
  // ---------------------------------------------------------------

  /** `{ participants: viewer, archivedBy: viewer }` when `archived`, else
      `{ participants: viewer, archivedBy: { $ne: viewer } }`. */
  function Shown(viewer: UserId, archived: bool): Conversation -> bool {
    (c: Conversation) => viewer in c.participants && ((viewer in c.archivedBy) <==> archived)
  }

  function UpdatedAt(c: Conversation): int {
    c.updatedAt
  }

  function NotUser(viewer: UserId): UserId -> bool {
    (u: UserId) => u != viewer
  }

  /** The other member of a private chat: the first populated participant
      that is not the viewer. */
  function OtherMember(st: Store, c: Conversation, viewer: UserId): (r: Option<UserId>)
    ensures r.Some? ==> r.value in st.users && r.value != viewer && r.value in c.participants
    ensures r.None? <==> forall i :: 0 <= i < |c.participants| ==>
                           c.participants[i] == viewer || c.participants[i] !in st.users
  {
    var ps := Populate(c.participants, st.users);
    match FirstIndex(ps, NotUser(viewer))
    case None => None
    case Some(k) => Some(ps[k])
  }

  /** The preview of the populated `lastMessage`; a dangling reference
      populates to null. */
  function PreviewOf(st: Store, c: Conversation): (r: Option<Preview>)
    ensures r.Some? <==> c.lastMessage.Some? && c.lastMessage.value in MsgIds(st.msgs)
    ensures r.Some? ==> var m := st.msgs[FindMessage(st, c.lastMessage.value).value];
      r.value == Preview(m.text, m.mtype, m.sender, m.createdAt)
  {
    match c.lastMessage
    case None => None
    case Some(id) =>
      match FindMessage(st, id)
      case None => None
      case Some(i) =>
        var m := st.msgs[i];
        Some(Preview(m.text, m.mtype, m.sender, m.createdAt))
  }

  predicate MutedFor(c: Conversation, viewer: UserId) {
    exists k :: 0 <= k < |c.mutedBy| && c.mutedBy[k].user == viewer
  }

  /** One list entry. A group shows its own name and avatar; a private
      chat shows its other member, "Unknown" when there is none or the
      name is empty. `isMuted` ignores the entry's expiry. */
  function SummaryOf(st: Store, c: Conversation, viewer: UserId): (s: Summary)
    ensures s.id == c.id && s.ctype == c.ctype && s.updatedAt == c.updatedAt
    ensures s.isGroup <==> c.ctype == Group
    ensures c.ctype == Group ==> s.name == c.groupName && s.avatar == c.groupAvatar && s.participantId.None?
    ensures c.ctype == Private ==> s.participantId == OtherMember(st, c, viewer)
    ensures c.ctype == Private ==>
      (s.name == UnknownName <==> (OtherMember(st, c, viewer).None? ||
                                   st.users[OtherMember(st, c, viewer).value].name in {[], UnknownName}))
    ensures c.ctype == Private && OtherMember(st, c, viewer).Some? ==>
      var p := st.users[OtherMember(st, c, viewer).value];
      && s.avatar == p.avatar && s.online == p.online && s.lastSeen == p.lastSeen
      && (p.name != [] ==> s.name == p.name)
    ensures c.ctype == Group || OtherMember(st, c, viewer).None? ==> s.avatar == (if c.ctype == Group then c.groupAvatar else []) && !s.online && s.lastSeen.None?
    ensures s.unreadCount == MessageRoutes.UnreadCount(st.msgs, c.id, viewer)
    ensures s.isMuted <==> MutedFor(c, viewer)
    ensures s.lastMessage == PreviewOf(st, c)
    ensures s.participants == Populate(c.participants, st.users)
  {
    var ps := Populate(c.participants, st.users);
    var unread := MessageRoutes.UnreadCount(st.msgs, c.id, viewer);
    var muted := exists k :: 0 <= k < |c.mutedBy| && c.mutedBy[k].user == viewer;
    var preview := PreviewOf(st, c);
    if c.ctype == Group then
      Summary(c.id, c.groupName, c.groupAvatar, true, false, None, None, c.ctype, ps,
              preview, unread, muted, c.updatedAt)
    else
      match OtherMember(st, c, viewer)
      case None =>
        Summary(c.id, UnknownName, [], false, false, None, None, c.ctype, ps,
                preview, unread, muted, c.updatedAt)
      case Some(o) =>
        var p := st.users[o];
        Summary(c.id, if p.name == [] then UnknownName else p.name, p.avatar, false, p.online,
                p.lastSeen, Some(o), c.ctype, ps, preview, unread, muted, c.updatedAt)
  }

  function Summaries(st: Store, cs: seq<Conversation>, viewer: UserId): (r: seq<Summary>)
    ensures |r| == |cs| && forall k :: 0 <= k < |cs| ==> r[k] == SummaryOf(st, cs[k], viewer)
  {
    seq(|cs|, k requires 0 <= k < |cs| => SummaryOf(st, cs[k], viewer))
  }

  /** The conversations the listing query selects, by `updatedAt`
      descending. */
  function ShownConvs(st: Store, viewer: UserId, archived: bool): (r: seq<Conversation>)
    ensures SortedDesc(r, UpdatedAt)
    ensures multiset(r) == multiset(Filter(st.convs, Shown(viewer, archived)))
  {
    SortDesc(Filter(st.convs, Shown(viewer, archived)), UpdatedAt)
  }

  /** The query selects exactly the viewer's conversations with the
      requested archive flag. */
  lemma ShownConvsContents(st: Store, viewer: UserId, archived: bool)
    ensures var r := ShownConvs(st, viewer, archived);
      && (forall j :: 0 <= j < |st.convs| && Shown(viewer, archived)(st.convs[j]) ==> st.convs[j] in r)
      && (forall k :: 0 <= k < |r| ==> r[k] in st.convs && Shown(viewer, archived)(r[k]))
  {
    var listed := Filter(st.convs, Shown(viewer, archived));
    FilterContents(st.convs, Shown(viewer, archived));
    var r := ShownConvs(st, viewer, archived);
    forall j | 0 <= j < |st.convs| && Shown(viewer, archived)(st.convs[j]) ensures st.convs[j] in r {
      assert st.convs[j] in multiset(r);
    }
    forall k | 0 <= k < |r| ensures r[k] in st.convs && Shown(viewer, archived)(r[k]) {
      assert r[k] in multiset(listed);
      var q :| 0 <= q < |listed| && listed[q] == r[k];
      assert r[k] in multiset(st.convs);
    }
  }

  /** GET /api/conversations: the viewer's conversations, most recently
      updated first. */
  function ListConversations(st: Store, viewer: UserId, archived: bool): (r: seq<Summary>)
    ensures SortedDesc(r, (s: Summary) => s.updatedAt)
    ensures |r| == |ShownConvs(st, viewer, archived)| == Count(st.convs, Shown(viewer, archived))
    ensures forall k :: 0 <= k < |r| ==> r[k] == SummaryOf(st, ShownConvs(st, viewer, archived)[k], viewer)
  {
    Summaries(st, ShownConvs(st, viewer, archived), viewer)
  }

  /** The listing holds a summary of exactly the viewer's shown
      conversations. */
  lemma ListingContents(st: Store, viewer: UserId, archived: bool)
    ensures var r := ListConversations(st, viewer, archived);
      && (forall j :: 0 <= j < |st.convs| && Shown(viewer, archived)(st.convs[j]) ==>
            SummaryOf(st, st.convs[j], viewer) in r)
      && (forall k :: 0 <= k < |r| ==>
            exists j :: 0 <= j < |st.convs| && Shown(viewer, archived)(st.convs[j])
                        && r[k] == SummaryOf(st, st.convs[j], viewer))
  {
    var shown := ShownConvs(st, viewer, archived);
    ShownConvsContents(st, viewer, archived);
    var r := ListConversations(st, viewer, archived);
    forall j | 0 <= j < |st.convs| && Shown(viewer, archived)(st.convs[j])
      ensures SummaryOf(st, st.convs[j], viewer) in r
    {
      var k :| 0 <= k < |shown| && shown[k] == st.convs[j];
      assert r[k] == SummaryOf(st, st.convs[j], viewer);
    }
    forall k | 0 <= k < |r|
      ensures exists j :: 0 <= j < |st.convs| && Shown(viewer, archived)(st.convs[j])
                          && r[k] == SummaryOf(st, st.convs[j], viewer)
    {
      var j :| 0 <= j < |st.convs| && st.convs[j] == shown[k];
      assert r[k] == SummaryOf(st, st.convs[j], viewer);
    }
  }

  /** Every conversation of the viewer is in exactly one of the two
      listings: the archived one when the viewer archived it. */
  lemma ArchivePartition(st: Store, viewer: UserId, j: nat)
    requires Valid(st) && j < |st.convs| && viewer in st.convs[j].participants
    ensures var id := st.convs[j].id;
      && (InListing(st, viewer, true, id) <==> viewer in st.convs[j].archivedBy)
      && (InListing(st, viewer, false, id) <==> viewer !in st.convs[j].archivedBy)
  {
    ShownPartition(st, viewer, j, true);
    ShownPartition(st, viewer, j, false);
    ListingIds(st, viewer, true);
    ListingIds(st, viewer, false);
  }

  /** Entry `k` of the listing is about the `k`-th selected conversation. */
  lemma ListingIds(st: Store, viewer: UserId, archived: bool)
    ensures var r := ListConversations(st, viewer, archived);
      var shown := ShownConvs(st, viewer, archived);
      |r| == |shown| && forall k :: 0 <= k < |r| ==> r[k].id == shown[k].id
  {
  }

  /** Under unique ids, a conversation of the viewer is selected by the
      listing query for exactly one value of the archive flag. */
  lemma ShownPartition(st: Store, viewer: UserId, j: nat, archived: bool)
    requires NoDup(ConvIds(st.convs)) && j < |st.convs| && viewer in st.convs[j].participants
    ensures var shown := ShownConvs(st, viewer, archived);
      (exists k :: 0 <= k < |shown| && shown[k].id == st.convs[j].id)
        <==> ((viewer in st.convs[j].archivedBy) <==> archived)
  {
    var shown := ShownConvs(st, viewer, archived);
    ShownConvsContents(st, viewer, archived);
    if (viewer in st.convs[j].archivedBy) <==> archived {
      assert st.convs[j] in shown;
      var k :| 0 <= k < |shown| && shown[k] == st.convs[j];
    } else {
      forall k | 0 <= k < |shown| ensures shown[k].id != st.convs[j].id {
        var q :| 0 <= q < |st.convs| && st.convs[q] == shown[k];
        assert Shown(viewer, archived)(st.convs[q]);
        assert q != j;
        assert ConvIds(st.convs)[q] != ConvIds(st.convs)[j];
      }
    }
  }

  /** The listing for `archived` has an entry for conversation `id`. */
  predicate InListing(st: Store, viewer: UserId, archived: bool, id: ConvId) {
    exists k :: 0 <= k < |ListConversations(st, viewer, archived)|
                && ListConversations(st, viewer, archived)[k].id == id
  }

  /** Once the viewer marks a conversation read, its list entry shows no
      unread messages. */
  lemma ListedUnreadAfterMarkRead(st: Store, c: Conversation, viewer: UserId)
    ensures SummaryOf(MessageRoutes.MarkRead(st, c.id, viewer).store, c, viewer).unreadCount == 0
  {
    MessageRoutes.MarkReadClearsUnread(st, c.id, viewer);
  }

  // ---------------------------------------------------------------
  // POST /api/conversations
  // ---------------------------------------------------------------

  /** `{ type: 'private', participants: { $all: [a, b], $size: 2 } }`. */
  function DirectBetween(a: UserId, b: UserId): Conversation -> bool {
    (c: Conversation) => c.ctype == Private && a in c.participants && b in c.participants
                         && |c.participants| == 2
  }

  function NewDirect(id: ConvId, a: UserId, b: UserId, now: Time): Conversation {
    Conversation(id, Private, [a, b], [], [], [], [], None, None, [], [], now, now)
  }

  /** The open-direct reply for `c`: its other member as populated, with
      that member's profile fields. */
  function OpenedReply(st: Store, c: Conversation, requester: UserId): (r: Reply)
    ensures r.Opened? && r.id == c.id && r.participantId == OtherMember(st, c, requester)
    ensures r.participantId.Some? ==> r.profile == Some(st.users[r.participantId.value])
    ensures r.participantId.None? ==> r.profile.None?
  {
    match OtherMember(st, c, requester)
    case None => Opened(c.id, None, None)
    case Some(o) => Opened(c.id, Some(o), Some(st.users[o]))
  }

  /** Finds the direct chat of the two users or creates it, and answers
      with its id and the other member. */
  function OpenDirect(st: Store, requester: UserId, participantId: Option<UserId>, now: Time): (r: Step)
    ensures participantId.None? <==> r.reply == Fail(BadRequest)
    ensures r.out == []
    ensures participantId.Some? ==>
      var other := participantId.value;
      && r.reply.Opened?
      && (exists j :: 0 <= j < |r.store.convs| && r.store.convs[j].id == r.reply.id
                      && DirectBetween(requester, other)(r.store.convs[j]))
      && (r.store == st <==> exists j :: 0 <= j < |st.convs| && DirectBetween(requester, other)(st.convs[j]))
      && (r.store != st ==>
            && r.store == st.(convs := st.convs + [NewDirect(st.nextId, requester, other, now)],
                              nextId := st.nextId + 1)
            && r.reply.id == st.nextId)
    ensures r.reply == Fail(BadRequest) ==> r.store == st
    ensures participantId.Some? && participantId.value != requester ==>
      r.reply.participantId == (if participantId.value in st.users then participantId else None)
    ensures r.reply.Opened? ==>
      && (r.reply.participantId.Some? <==> r.reply.profile.Some?)
      && (r.reply.participantId.Some? ==>
            r.reply.participantId.value in st.users
            && r.reply.profile == Some(st.users[r.reply.participantId.value]))
  {
    match participantId
    case None => Step(st, Fail(BadRequest), [])
    case Some(other) =>
      match FirstIndex(st.convs, DirectBetween(requester, other))
      case Some(j) =>
        assert other != requester ==>
          OtherMember(st, st.convs[j], requester) == (if other in st.users then Some(other) else None) by {
          if other != requester { PairOther(st, st.convs[j], requester, other); }
        }
        Step(st, OpenedReply(st, st.convs[j], requester), [])
      case None =>
        var c := NewDirect(st.nextId, requester, other, now);
        var st1 := st.(convs := st.convs + [c], nextId := st.nextId + 1);
        assert other != requester ==>
          OtherMember(st1, c, requester) == (if other in st.users then Some(other) else None) by {
          if other != requester { PairOther(st1, c, requester, other); }
        }
        assert st1.convs[|st.convs|] == c;
        assert st1 != st by { assert |st1.convs| != |st.convs|; }
        Step(st1, OpenedReply(st1, c, requester), [])
  }

  /** In the direct chat of two different users, the other member shown
      to one is the second user, when their profile exists. */
  lemma PairOther(st: Store, c: Conversation, a: UserId, b: UserId)
    requires DirectBetween(a, b)(c) && a != b
    ensures OtherMember(st, c, a) == (if b in st.users then Some(b) else None)
  {
    var ps := c.participants;
    assert ps == [a, b] || ps == [b, a];
  }

  lemma OpenDirectKeepsValid(st: Store, requester: UserId, participantId: Option<UserId>, now: Time)
    requires Valid(st)
    ensures Valid(OpenDirect(st, requester, participantId, now).store)
  {
    if participantId.Some? && FirstIndex(st.convs, DirectBetween(requester, participantId.value)).None? {
      AppendConvValid(st, NewDirect(st.nextId, requester, participantId.value, now));
    }
  }

  /** Opening a direct chat is a lookup-or-create: opening it again, from
      either side, finds the same conversation and creates nothing. */
  lemma OpenDirectTwice(st: Store, a: UserId, b: UserId, now: Time, later: Time)
    requires Valid(st)
    ensures var first := OpenDirect(st, a, Some(b), now);
      && OpenDirect(first.store, a, Some(b), later).store == first.store
      && OpenDirect(first.store, b, Some(a), later).store == first.store
      && OpenDirect(first.store, a, Some(b), later).reply.id == first.reply.id
      && OpenDirect(first.store, b, Some(a), later).reply.id == first.reply.id
  {
    var p := DirectBetween(a, b);
    var q := DirectBetween(b, a);
    assert forall c: Conversation :: p(c) == q(c);
    var first := OpenDirect(st, a, Some(b), now);
    var s1 := first.store;
    match FirstIndex(st.convs, p)
    case Some(j) =>
      FirstIndexSame(st.convs, p, q);
    case None =>
      var c := NewDirect(st.nextId, a, b, now);
      assert s1.convs == st.convs + [c];
      FirstIndexAppend(st.convs, c, p);
      FirstIndexSame(s1.convs, p, q);
  }

  // ---------------------------------------------------------------
  // POST /api/conversations/group
  // ---------------------------------------------------------------

  /** The text of the message that opens a group. */
  function CreatedText(requesterName: string, name: string): string {
    requesterName + " created group \"" + name + "\""
  }

  /** Creates a group with the requester first and sole admin, then its
      opening system message. The conversation's `lastMessage` stays
      unset and nobody is notified. */
  function CreateGroup(st: Store, requester: UserId, requesterName: string, name: string,
                       participants: seq<UserId>, description: string, now: Time): (r: Step)
    ensures r.reply == Fail(BadRequest) <==> name == [] || participants == []
    ensures r.reply == Fail(BadRequest) ==> r.store == st
    ensures r.out == []
    ensures r.reply != Fail(BadRequest) ==>
      && r.reply == GroupCreated(st.nextId, name, Populate([requester] + participants, st.users))
      && r.store.nextId == st.nextId + 2 && r.store.users == st.users
      && |r.store.convs| == |st.convs| + 1 && r.store.convs[..|st.convs|] == st.convs
      && |r.store.msgs| == |st.msgs| + 1 && r.store.msgs[..|st.msgs|] == st.msgs
      && var c := r.store.convs[|st.convs|];
         var m := r.store.msgs[|st.msgs|];
         && c.id == st.nextId && c.ctype == Group && c.groupName == name
         && c.participants == [requester] + participants
         && c.admins == [requester] && c.createdBy == Some(requester)
         && c.lastMessage.None? && c.groupDescription == description && c.groupAvatar == []
         && c.mutedBy == [] && c.archivedBy == [] && c.createdAt == now && c.updatedAt == now
         && m.id == st.nextId + 1 && m.conversationId == c.id && m.sender == requester
         && m.mtype == System && m.text == CreatedText(requesterName, name)
         && MessageRoutes.Fresh(m) && m.createdAt == now
  {
    if name == [] || participants == [] then Step(st, Fail(BadRequest), [])
    else
      var c := Conversation(st.nextId, Group, [requester] + participants, name, [], description,
                            [requester], Some(requester), None, [], [], now, now);
      var m := Message(st.nextId + 1, c.id, requester, CreatedText(requesterName, name), System,
                       [], [], 0, None, [], [], [], false, [], false, None, now);
      var st1 := Store(st.convs + [c], st.msgs + [m], st.users, st.nextId + 2);
      assert st1.convs[..|st.convs|] == st.convs && st1.msgs[..|st.msgs|] == st.msgs;
      Step(st1, GroupCreated(c.id, name, Populate(c.participants, st.users)), [])
  }

  lemma CreateGroupKeepsValid(st: Store, requester: UserId, requesterName: string, name: string,
                              participants: seq<UserId>, description: string, now: Time)
    requires Valid(st)
    ensures Valid(CreateGroup(st, requester, requesterName, name, participants, description, now).store)
  {
    if name != [] && participants != [] {
      var c := Conversation(st.nextId, Group, [requester] + participants, name, [], description,
                            [requester], Some(requester), None, [], [], now, now);
      var m := Message(st.nextId + 1, c.id, requester, CreatedText(requesterName, name), System,
                       [], [], 0, None, [], [], [], false, [], false, None, now);
      AppendConvValid(st, c);
      var st1 := st.(convs := st.convs + [c], nextId := st.nextId + 1);
      assert c.id in ConvIds(st1.convs) && MessageOk(m);
      AppendMessageValid(st1, m);
      assert CreateGroup(st, requester, requesterName, name, participants, description, now).store
        == st1.(msgs := st1.msgs + [m], nextId := st1.nextId + 1);
    }
  }

  /** The opening system message counts as unread for every member but
      the creator, since it is an ordinary message from the creator. */
  lemma NewGroupUnreadForOthers(st: Store, requester: UserId, requesterName: string, name: string,
                                participants: seq<UserId>, description: string, now: Time, viewer: UserId)
    requires Valid(st) && name != [] && participants != []
    ensures var after := CreateGroup(st, requester, requesterName, name, participants, description, now).store;
      MessageRoutes.UnreadCount(after.msgs, st.nextId, viewer) == if viewer == requester then 0 else 1
  {
    var after := CreateGroup(st, requester, requesterName, name, participants, description, now).store;
    var m := after.msgs[|st.msgs|];
    assert after.msgs == st.msgs + [m];
    assert st.nextId !in ConvIds(st.convs);
    NoMessagesOfMissingConv(st, st.nextId);
    CountNone(st.msgs, MessageRoutes.Unread(st.nextId, viewer));
    FilterSnoc(st.msgs, m, MessageRoutes.Unread(st.nextId, viewer));
  }

  // ---------------------------------------------------------------
  // PUT /api/conversations/:id/archive and /mute
  // ---------------------------------------------------------------

  function ArchivedAfter(archivedBy: seq<UserId>, user: UserId): (r: seq<UserId>)
    ensures user in r <==> user !in archivedBy
    ensures forall u :: u != user ==> (u in r <==> u in archivedBy)
  {
    if user in archivedBy then
      var r := Filter(archivedBy, NotUser(user));
      FilterContents(archivedBy, NotUser(user));
      assert forall u :: u in r ==> u in multiset(archivedBy);
      assert forall i :: 0 <= i < |archivedBy| && archivedBy[i] != user ==> archivedBy[i] in multiset(r);
      r
    else archivedBy + [user]
  }

  /** Flips whether the user has archived the conversation. */
  function ToggleArchive(st: Store, c: ConvId, user: UserId, now: Time): (r: Step)
    ensures r.reply == Fail(NotFound) <==> c !in ConvIds(st.convs)
    ensures r.reply == Fail(NotFound) ==> r.store == st
    ensures r.out == []
    ensures r.reply != Fail(NotFound) ==>
      var j := FindConv(st, c).value;
      var conv := st.convs[j];
      && r.reply == Archived(user !in conv.archivedBy)
      && r.store == st.(convs := st.convs[j := SaveConv(conv, conv.(archivedBy := ArchivedAfter(conv.archivedBy, user)), now)])
  {
    match FindConv(st, c)
    case None => Step(st, Fail(NotFound), [])
    case Some(j) =>
      var conv := st.convs[j];
      var after := SaveConv(conv, conv.(archivedBy := ArchivedAfter(conv.archivedBy, user)), now);
      Step(st.(convs := st.convs[j := after]), Archived(user !in conv.archivedBy), [])
  }

  /** Archiving moves a conversation into the archived listing, and
      unarchiving moves it back. */
  lemma ToggleArchiveMovesListing(st: Store, c: ConvId, user: UserId, now: Time)
    requires Valid(st) && IsMember(st, c, user)
    ensures var r := ToggleArchive(st, c, user, now);
      r.reply.Archived? && InListing(r.store, user, r.reply.archived, c)
      && !InListing(r.store, user, !r.reply.archived, c)
  {
    var j := FindConv(st, c).value;
    var k :| 0 <= k < |st.convs| && st.convs[k].id == c && user in st.convs[k].participants;
    assert ConvIds(st.convs)[k] == ConvIds(st.convs)[j];
    var conv := st.convs[j];
    var after := SaveConv(conv, conv.(archivedBy := ArchivedAfter(conv.archivedBy, user)), now);
    ReplaceConvValid(st, j, after);
    var r := ToggleArchive(st, c, user, now);
    ArchivePartition(r.store, user, j);
  }

  /** Toggling twice restores who has archived the conversation, and
      restores the list itself when the user had not archived it. */
  lemma ToggleArchiveTwice(st: Store, c: ConvId, user: UserId, now: Time, later: Time)
    requires c in ConvIds(st.convs)
    ensures var j := FindConv(st, c).value;
      var twice := ToggleArchive(ToggleArchive(st, c, user, now).store, c, user, later).store;
      && FindConv(twice, c) == Some(j)
      && (forall u :: u in twice.convs[j].archivedBy <==> u in st.convs[j].archivedBy)
      && (user !in st.convs[j].archivedBy ==> twice.convs[j].archivedBy == st.convs[j].archivedBy)
  {
    var j := FindConv(st, c).value;
    var once := ToggleArchive(st, c, user, now).store;
    FirstIndexPointwise(st.convs, once.convs, ConvWithId(c));
    var twice := ToggleArchive(once, c, user, later).store;
    FirstIndexPointwise(once.convs, twice.convs, ConvWithId(c));
    var a := st.convs[j].archivedBy;
    if user !in a {
      FilterNoneRemoved(a, user);
    }
  }

  /** Removing a user after appending them gives back the original list,
      when they were not in it. */
  lemma FilterNoneRemoved(a: seq<UserId>, user: UserId)
    requires user !in a
    ensures Filter(a + [user], NotUser(user)) == a
  {
    FilterSnoc(a, user, NotUser(user));
    FilterAllKept(a, NotUser(user));
  }

  function NotMutedBy(user: UserId): MuteEntry -> bool {
    (m: MuteEntry) => m.user != user
  }

  /** The mute entries after `user` mutes for `duration` hours (0 or less
      unmutes). */
  function MutedAfter(mutedBy: seq<MuteEntry>, user: UserId, duration: int, now: Time): (r: seq<MuteEntry>)
    ensures Filter(r, NotMutedBy(user)) == Filter(mutedBy, NotMutedBy(user))
    ensures duration > 0 ==> |r| > 0 && r[|r| - 1] == MuteEntry(user, now + duration * HourMillis)
    ensures duration > 0 ==> forall k :: 0 <= k < |r| - 1 ==> r[k].user != user
    ensures duration <= 0 ==> forall k :: 0 <= k < |r| ==> r[k].user != user
  {
    var others := Filter(mutedBy, NotMutedBy(user));
    FilterTwice(mutedBy, NotMutedBy(user));
    if duration > 0 then
      var e := MuteEntry(user, now + duration * HourMillis);
      FilterSnoc(others, e, NotMutedBy(user));
      others + [e]
    else others
  }

  /** Sets or clears the user's mute on the conversation. */
  function Mute(st: Store, c: ConvId, user: UserId, duration: int, now: Time): (r: Step)
    ensures r.reply == Fail(NotFound) <==> c !in ConvIds(st.convs)
    ensures r.reply == Fail(NotFound) ==> r.store == st
    ensures r.out == []
    ensures r.reply != Fail(NotFound) ==>
      var j := FindConv(st, c).value;
      var conv := st.convs[j];
      && r.reply == Muted(duration > 0)
      && r.store == st.(convs := st.convs[j := SaveConv(conv, conv.(mutedBy := MutedAfter(conv.mutedBy, user, duration, now)), now)])
  {
    match FindConv(st, c)
    case None => Step(st, Fail(NotFound), [])
    case Some(j) =>
      var conv := st.convs[j];
      var after := SaveConv(conv, conv.(mutedBy := MutedAfter(conv.mutedBy, user, duration, now)), now);
      Step(st.(convs := st.convs[j := after]), Muted(duration > 0), [])
  }

  /** The list entry reports the conversation muted exactly when the last
      mute request had a positive duration, and other users' mutes are
      untouched. */
  lemma MuteShowsInListing(st: Store, c: ConvId, user: UserId, duration: int, now: Time, other: UserId)
    requires c in ConvIds(st.convs) && other != user
    ensures var j := FindConv(st, c).value;
      var after := Mute(st, c, user, duration, now).store;
      && SummaryOf(after, after.convs[j], user).isMuted == (duration > 0)
      && (MutedFor(after.convs[j], other) <==> MutedFor(st.convs[j], other))
  {
    var j := FindConv(st, c).value;
    var after := Mute(st, c, user, duration, now).store;
    var before := st.convs[j].mutedBy;
    var r := after.convs[j].mutedBy;
    assert r == MutedAfter(before, user, duration, now);
    if duration > 0 {
      assert r[|r| - 1].user == user;
    }
    MutedOthers(before, r, user, other);
  }

  /** Two entry lists with the same entries of everyone but `user` agree
      on whether `other` has muted. */
  lemma MutedOthers(a: seq<MuteEntry>, b: seq<MuteEntry>, user: UserId, other: UserId)
    requires Filter(a, NotMutedBy(user)) == Filter(b, NotMutedBy(user)) && other != user
    ensures (exists k :: 0 <= k < |a| && a[k].user == other) <==> (exists k :: 0 <= k < |b| && b[k].user == other)
  {
    var f := Filter(a, NotMutedBy(user));
    FilterContents(a, NotMutedBy(user));
    FilterContents(b, NotMutedBy(user));
    if exists k :: 0 <= k < |a| && a[k].user == other {
      var k :| 0 <= k < |a| && a[k].user == other;
      assert a[k] in multiset(f);
      assert a[k] in multiset(b);
      var q :| 0 <= q < |b| && b[q] == a[k];
    }
    if exists k :: 0 <= k < |b| && b[k].user == other {
      var k :| 0 <= k < |b| && b[k].user == other;
      assert b[k] in multiset(f);
      assert b[k] in multiset(a);
      var q :| 0 <= q < |a| && a[q] == b[k];
    }
  }

  lemma ToggleArchiveKeepsValid(st: Store, c: ConvId, user: UserId, now: Time)
    requires Valid(st)
    ensures Valid(ToggleArchive(st, c, user, now).store)
  {
    match FindConv(st, c)
    case None =>
    case Some(j) =>
      var conv := st.convs[j];
      ReplaceConvValid(st, j, SaveConv(conv, conv.(archivedBy := ArchivedAfter(conv.archivedBy, user)), now));
  }

  lemma MuteKeepsValid(st: Store, c: ConvId, user: UserId, duration: int, now: Time)
    requires Valid(st)
    ensures Valid(Mute(st, c, user, duration, now).store)
  {
    match FindConv(st, c)
    case None =>
    case Some(j) =>
      var conv := st.convs[j];
      ReplaceConvValid(st, j, SaveConv(conv, conv.(mutedBy := MutedAfter(conv.mutedBy, user, duration, now)), now));
  }
}

=== FILE: messages.dfy ===
/** The message routes of backend/server.js as store transformers: send,
    upload, fetch (with its implicit delivery marking), mark-read,
    delete, edit and react. */
module MessageRoutes {
  import opened Base
  import opened Records
  import opened Sorting
  import Text

  /** What a tombstone shows in place of its text. */
  const DeletedText: string := "This message was deleted"

  /** Page size when the request gives no `limit`. */
  const DefaultLimit: int := 50

  const ImageExts: seq<string> := [".jpg", ".jpeg", ".png", ".gif", ".webp"]
  const VideoExts: seq<string> := [".mp4", ".webm", ".mov"]
  const AudioExts: seq<string> := [".mp3", ".wav", ".ogg", ".m4a"]

  /** The upload handler's classification of a file by the lower-cased
      extension of its original name. */
  function UploadType(originalName: string): (t: MsgType)
    ensures t != Text && t != System
    ensures var ext := Text.AsciiLower(Text.ExtName(originalName));
      && (t == Image <==> ext in ImageExts)
      && (t == Video <==> ext !in ImageExts && ext in VideoExts)
      && (t == Audio <==> ext !in ImageExts && ext !in VideoExts && ext in AudioExts)
  {
    var ext := Text.AsciiLower(Text.ExtName(originalName));
    if ext in ImageExts then Image
    else if ext in VideoExts then Video
    else if ext in AudioExts then Audio
    else File
  }

  /** A name without an extension is filed as a plain file. */
  lemma NoExtensionIsFile(originalName: string)
    requires Text.ExtName(originalName) == []
    ensures UploadType(originalName) == File
  {
    var ext := Text.AsciiLower(Text.ExtName(originalName));
    assert |ext| == 0;
    assert ext !in ImageExts && ext !in VideoExts && ext !in AudioExts;
  }

  /** The reply/broadcast payload built for a freshly created message. */
  function CreatedView(m: Message): (v: MessageView)
    ensures v.id == m.id && v.conversationId == Some(m.conversationId)
    ensures v.isMine && !v.deleted && !v.edited
    ensures v.readBy == [] && v.deliveredTo == []
  {
    MessageView(m.id, Some(m.conversationId), m.text, m.mtype, m.fileUrl, m.fileName,
                m.fileSize, m.sender, m.replyTo, m.reactions, [], [], false, false,
                m.createdAt, true, false)
  }

  /** The body text of a sent message: `text?.trim() || ''`. */
  function BodyText(text: Option<string>): (r: string)
    ensures text.None? ==> r == []
    ensures text.Some? ==> r == Text.Trim(text.value)
  {
    match text
    case None => []
    case Some(t) => Text.Trim(t)
  }

  /** A message with no receipts, reactions or deletion marks. */
  predicate Fresh(m: Message) {
    m.reactions == [] && m.readBy == [] && m.deliveredTo == []
    && !m.deleted && m.deletedFor == [] && !m.edited && m.editedAt.None?
  }

  /** The conversation record after a new message: it points at that
      message. */
  function WithLast(c: Conversation, id: MsgId, now: Time): (r: Conversation)
    ensures r == c.(lastMessage := Some(id), updatedAt := now)
  {
    SaveConv(c, c.(lastMessage := Some(id), updatedAt := now), now)
  }

  /** Stores a new message and announces it to the other participants. */
  function Post(st: Store, j: nat, m: Message, now: Time): (r: Step)
    requires j < |st.convs|
    ensures r.reply == Sent(CreatedView(m)) && r.store.msgs == st.msgs + [m]
    ensures r.store.users == st.users && r.store.nextId == st.nextId + 1
    ensures r.store.convs == st.convs[j := st.convs[j].(lastMessage := Some(m.id), updatedAt := now)]
    ensures forall e :: e in r.out ==>
      && e.event == NewMessage(CreatedView(m).(isMine := false)) && e.target.ToUser?
      && e.target.user in st.convs[j].participants && e.target.user != m.sender
    ensures forall p :: p in st.convs[j].participants && p != m.sender ==>
      Emit(ToUser(p), NewMessage(CreatedView(m).(isMine := false))) in r.out
  {
    var conv := st.convs[j];
    var view := CreatedView(m);
    Step(Store(st.convs[j := WithLast(conv, m.id, now)], st.msgs + [m], st.users, st.nextId + 1),
         Sent(view),
         FanOut(conv.participants, Some(m.sender), NewMessage(view.(isMine := false))))
  }

  /** POST /api/conversations/:id/messages. */
  function Send(st: Store, c: ConvId, sender: UserId, text: Option<string>,
                mtype: Option<MsgType>, replyTo: Option<MsgId>, now: Time): (r: Step)
    ensures r.reply == Fail(NotFound) <==> !IsMember(st, c, sender)
    ensures r.reply.Fail? ==> r.store == st && r.out == []
    ensures !r.reply.Fail? ==>
      && r.reply.Sent?
      && |r.store.msgs| == |st.msgs| + 1 && r.store.msgs[..|st.msgs|] == st.msgs
      && r.store.nextId == st.nextId + 1
      && var m := r.store.msgs[|st.msgs|];
         && m.id == st.nextId && m.conversationId == c && m.sender == sender
         && m.text == BodyText(text) && m.replyTo == replyTo && m.createdAt == now
         && m.mtype == (if mtype.Some? then mtype.value else Text)
         && Fresh(m) && m.fileUrl == []
         && r.reply.message.id == m.id && r.reply.message.isMine
    ensures !r.reply.Fail? ==>
      var j := FindMember(st, c, sender).value;
      && r.store.users == st.users
      && r.store.convs == st.convs[j := st.convs[j].(lastMessage := Some(st.nextId), updatedAt := now)]
      && (forall e :: e in r.out ==>
            && e.event == NewMessage(r.reply.message.(isMine := false)) && e.target.ToUser?
            && e.target.user in st.convs[j].participants && e.target.user != sender)
      && forall p :: p in st.convs[j].participants && p != sender ==>
           Emit(ToUser(p), NewMessage(r.reply.message.(isMine := false))) in r.out
  {
    match FindMember(st, c, sender)
    case None => Step(st, Fail(NotFound), [])
    case Some(j) =>
      var m := Message(st.nextId, c, sender, BodyText(text),
                       if mtype.Some? then mtype.value else Text,
                       [], [], 0, replyTo, [], [], [], false, [], false, None, now);
      var r := Post(st, j, m, now);
      assert r.store.msgs[..|st.msgs|] == st.msgs;
      r
  }

  /** The file multer stored for an upload. */
  datatype UploadedFile = UploadedFile(originalName: string, storedName: string, size: nat)

  /** POST /api/conversations/:id/upload. The caption is not trimmed. */
  function Upload(st: Store, c: ConvId, sender: UserId, file: Option<UploadedFile>,
                  caption: string, now: Time): (r: Step)
    ensures file.None? ==> r == Step(st, Fail(BadRequest), [])
    ensures file.Some? ==> (r.reply == Fail(NotFound) <==> !IsMember(st, c, sender))
    ensures r.reply.Fail? ==> r.store == st && r.out == []
    ensures !r.reply.Fail? ==>
      && file.Some? && r.reply.Sent?
      && |r.store.msgs| == |st.msgs| + 1 && r.store.msgs[..|st.msgs|] == st.msgs
      && var m := r.store.msgs[|st.msgs|];
         && m.id == st.nextId && m.conversationId == c && m.sender == sender
         && m.text == caption && m.mtype == UploadType(file.value.originalName)
         && m.fileUrl == "/uploads/" + file.value.storedName
         && m.fileName == file.value.originalName && m.fileSize == file.value.size
         && m.replyTo.None? && Fresh(m) && m.createdAt == now
    ensures !r.reply.Fail? ==>
      var j := FindMember(st, c, sender).value;
      && r.store.users == st.users && r.store.nextId == st.nextId + 1
      && r.store.convs == st.convs[j := st.convs[j].(lastMessage := Some(st.nextId), updatedAt := now)]
      && (forall e :: e in r.out ==>
            && e.event == NewMessage(r.reply.message.(isMine := false)) && e.target.ToUser?
            && e.target.user in st.convs[j].participants && e.target.user != sender)
      && forall p :: p in st.convs[j].participants && p != sender ==>
           Emit(ToUser(p), NewMessage(r.reply.message.(isMine := false))) in r.out
  {
    match file
    case None => Step(st, Fail(BadRequest), [])
    case Some(f) =>
      match FindMember(st, c, sender)
      case None => Step(st, Fail(NotFound), [])
      case Some(j) =>
        var m := Message(st.nextId, c, sender, caption, UploadType(f.originalName),
                         "/uploads/" + f.storedName, f.originalName, f.size, None,
                         [], [], [], false, [], false, None, now);
        var r := Post(st, j, m, now);
        assert r.store.msgs[..|st.msgs|] == st.msgs;
        r
  }

  /** Send and upload keep the store invariant. */
  lemma PostKeepsValid(st: Store, j: nat, m: Message, now: Time)
    requires Valid(st) && j < |st.convs|
    requires m.id == st.nextId && m.conversationId == st.convs[j].id && Fresh(m)
    ensures Valid(Post(st, j, m, now).store)
  {
    var st1 := st.(convs := st.convs[j := WithLast(st.convs[j], m.id, now)]);
    ReplaceConvValid(st, j, WithLast(st.convs[j], m.id, now));
    assert MessageOk(m);
    AppendMessageValid(st1, m);
  }

  lemma SendKeepsValid(st: Store, c: ConvId, sender: UserId, text: Option<string>,
                       mtype: Option<MsgType>, replyTo: Option<MsgId>, now: Time)
    requires Valid(st)
    ensures Valid(Send(st, c, sender, text, mtype, replyTo, now).store)
  {
    match FindMember(st, c, sender)
    case None =>
    case Some(j) =>
      var m := Message(st.nextId, c, sender, BodyText(text),
                       if mtype.Some? then mtype.value else Text,
                       [], [], 0, replyTo, [], [], [], false, [], false, None, now);
      PostKeepsValid(st, j, m, now);
  }

  lemma UploadKeepsValid(st: Store, c: ConvId, sender: UserId, file: Option<UploadedFile>,
                         caption: string, now: Time)
    requires Valid(st)
    ensures Valid(Upload(st, c, sender, file, caption, now).store)
  {
    if file.Some? {
      var f := file.value;
      match FindMember(st, c, sender)
      case None =>
      case Some(j) =>
        var m := Message(st.nextId, c, sender, caption, UploadType(f.originalName),
                         "/uploads/" + f.storedName, f.originalName, f.size, None,
                         [], [], [], false, [], false, None, now);
        PostKeepsValid(st, j, m, now);
    }
  }

  // ---------------------------------------------------------------
  // Unread messages and mark-read
  // ---------------------------------------------------------------

  /** `{ conversationId: c, sender: { $ne: viewer }, 'readBy.user': { $ne: viewer } }`:
      the filter of both the unread count and mark-read. */
  function Unread(c: ConvId, viewer: UserId): Message -> bool {
    (m: Message) => m.conversationId == c && m.sender != viewer && viewer !in m.readBy
  }

  function UnreadCount(msgs: seq<Message>, c: ConvId, viewer: UserId): nat {
    Count(msgs, Unread(c, viewer))
  }

  /** One message after `$push: { readBy: { user: viewer } }` when it is unread. */
  function ReadOne(m: Message, c: ConvId, viewer: UserId): (r: Message)
    ensures r.(readBy := m.readBy) == m
    ensures m.conversationId == c && m.sender != viewer ==> viewer in r.readBy
    ensures r.readBy == m.readBy || (viewer !in m.readBy && r.readBy == m.readBy + [viewer])
    ensures !Unread(c, viewer)(m) ==> r == m
  {
    if Unread(c, viewer)(m) then m.(readBy := m.readBy + [viewer]) else m
  }

  /** The mark-read update over the whole collection. */
  function ReadAll(msgs: seq<Message>, c: ConvId, viewer: UserId): (r: seq<Message>)
    ensures |r| == |msgs| && forall i :: 0 <= i < |msgs| ==> r[i] == ReadOne(msgs[i], c, viewer)
  {
    seq(|msgs|, i requires 0 <= i < |msgs| => ReadOne(msgs[i], c, viewer))
  }

  /** PUT /api/conversations/:id/read. The update runs before the
      conversation is looked up, so an unknown id answers with a server
      error after the (empty) update; there is no participant check. */
  function MarkRead(st: Store, c: ConvId, viewer: UserId): (r: Step)
    ensures r.store == st.(msgs := ReadAll(st.msgs, c, viewer))
    ensures FindConv(st, c).None? <==> r.reply == Fail(ServerError)
    ensures r.reply.Fail? ==> r.out == []
    ensures !r.reply.Fail? ==> r.reply == Updated(UnreadCount(st.msgs, c, viewer))
    ensures forall e :: e in r.out ==>
      && e == Emit(e.target, MessagesRead(c, viewer, None)) && e.target.ToUser? && e.target.user != viewer
      && FindConv(st, c).Some? && e.target.user in st.convs[FindConv(st, c).value].participants
    ensures FindConv(st, c).Some? ==>
      forall p :: p in st.convs[FindConv(st, c).value].participants && p != viewer ==>
        Emit(ToUser(p), MessagesRead(c, viewer, None)) in r.out
  {
    var st1 := st.(msgs := ReadAll(st.msgs, c, viewer));
    match FindConv(st, c)
    case None => Step(st1, Fail(ServerError), [])
    case Some(j) =>
      Step(st1, Updated(UnreadCount(st.msgs, c, viewer)),
           FanOut(st.convs[j].participants, Some(viewer), MessagesRead(c, viewer, None)))
  }

  /** After mark-read nothing in the conversation is unread for the viewer. */
  lemma MarkReadClearsUnread(st: Store, c: ConvId, viewer: UserId)
    ensures UnreadCount(MarkRead(st, c, viewer).store.msgs, c, viewer) == 0
  {
    var r := ReadAll(st.msgs, c, viewer);
    forall i | 0 <= i < |r| ensures !Unread(c, viewer)(r[i]) {
      assert r[i].conversationId == st.msgs[i].conversationId && r[i].sender == st.msgs[i].sender;
    }
    CountNone(r, Unread(c, viewer));
  }

  /** Marking read a second time changes nothing and reports no update. */
  lemma MarkReadIdempotent(st: Store, c: ConvId, viewer: UserId)
    requires FindConv(st, c).Some?
    ensures var once := MarkRead(st, c, viewer).store;
      && MarkRead(once, c, viewer).store == once
      && MarkRead(once, c, viewer).reply == Updated(0)
  {
    var r := ReadAll(st.msgs, c, viewer);
    MarkReadClearsUnread(st, c, viewer);
    assert forall i :: 0 <= i < |r| ==> !Unread(c, viewer)(r[i]) by {
      forall i | 0 <= i < |r| ensures !Unread(c, viewer)(r[i]) {
        assert r[i].conversationId == st.msgs[i].conversationId && r[i].sender == st.msgs[i].sender;
      }
    }
    assert ReadAll(r, c, viewer) == r;
    assert st.(msgs := r).convs == st.convs;
  }

  /** A sent message is one more unread message for every other user and
      changes nothing for the sender. */
  lemma SendRaisesUnread(st: Store, c: ConvId, sender: UserId, text: Option<string>,
                         mtype: Option<MsgType>, replyTo: Option<MsgId>, now: Time, viewer: UserId)
    requires IsMember(st, c, sender)
    ensures var after := Send(st, c, sender, text, mtype, replyTo, now).store;
      UnreadCount(after.msgs, c, viewer) == UnreadCount(st.msgs, c, viewer) + (if viewer == sender then 0 else 1)
  {
    var after := Send(st, c, sender, text, mtype, replyTo, now).store;
    var m := after.msgs[|st.msgs|];
    assert after.msgs == st.msgs + [m];
    FilterSnoc(st.msgs, m, Unread(c, viewer));
  }

  /** Mark-read leaves every delivery receipt as it was. */
  lemma MarkReadKeepsDelivery(st: Store, c: ConvId, viewer: UserId)
    ensures var after := MarkRead(st, c, viewer).store.msgs;
      |after| == |st.msgs| && forall i :: 0 <= i < |after| ==> after[i].deliveredTo == st.msgs[i].deliveredTo
  {
    var after := MarkRead(st, c, viewer).store.msgs;
    forall i | 0 <= i < |after| ensures after[i].deliveredTo == st.msgs[i].deliveredTo {
      assert after[i].(readBy := st.msgs[i].readBy) == st.msgs[i];
    }
  }

  lemma MarkReadKeepsValid(st: Store, c: ConvId, viewer: UserId)
    requires Valid(st)
    ensures Valid(MarkRead(st, c, viewer).store)
  {
    var r := ReadAll(st.msgs, c, viewer);
    assert MsgIds(r) == MsgIds(st.msgs) by {
      forall i | 0 <= i < |r| ensures r[i].id == st.msgs[i].id {
        assert r[i].(readBy := st.msgs[i].readBy) == st.msgs[i];
      }
    }
    forall i | 0 <= i < |r| ensures MessageOk(r[i]) && r[i].conversationId == st.msgs[i].conversationId {
      assert r[i].(readBy := st.msgs[i].readBy) == st.msgs[i];
      assert MessageOk(st.msgs[i]);
      if viewer !in st.msgs[i].readBy {
        NoDupSnoc(st.msgs[i].readBy, viewer);
      }
    }
  }

  // ---------------------------------------------------------------
  // Fetch
  // ---------------------------------------------------------------

  /** `{ conversationId: c, deletedFor: { $ne: viewer }, createdAt: { $lt: before } }`. */
  function Listed(c: ConvId, viewer: UserId, before: Option<Time>): Message -> bool {
    (m: Message) => m.conversationId == c && viewer !in m.deletedFor
                    && (before.None? || m.createdAt < before.value)
  }

  function CreatedAt(m: Message): int {
    m.createdAt
  }

  /** The listed messages, newest first, cut to the limit. */
  function Newest(msgs: seq<Message>, c: ConvId, viewer: UserId, before: Option<Time>, limit: int): (r: seq<Message>)
    ensures |r| == LimitCount(limit, Count(msgs, Listed(c, viewer, before)))
    ensures SortedDesc(r, CreatedAt)
    ensures multiset(r) <= multiset(Filter(msgs, Listed(c, viewer, before)))
  {
    var sorted := SortDesc(Filter(msgs, Listed(c, viewer, before)), CreatedAt);
    var k := LimitCount(limit, |sorted|);
    assert sorted == sorted[..k] + sorted[k..];
    sorted[..k]
  }

  /** The page of a fetch: the `limit` newest listed messages
      (`sort({ createdAt: -1 }).limit(n)`), put back oldest first
      (`reverse()`). */
  function PageOf(msgs: seq<Message>, c: ConvId, viewer: UserId, before: Option<Time>, limit: int): (page: seq<Message>)
    ensures |page| == LimitCount(limit, Count(msgs, Listed(c, viewer, before)))
    ensures SortedAsc(page, CreatedAt)
    ensures multiset(page) <= multiset(Filter(msgs, Listed(c, viewer, before)))
  {
    var newest := Newest(msgs, c, viewer, before, limit);
    ReverseSortedDesc(newest, CreatedAt);
    Reverse(newest)
  }

  /** Every message on a page is a stored message the query selects. */
  lemma PageIsListed(msgs: seq<Message>, c: ConvId, viewer: UserId, before: Option<Time>, limit: int)
    ensures var page := PageOf(msgs, c, viewer, before, limit);
      forall i :: 0 <= i < |page| ==> page[i] in multiset(msgs) && Listed(c, viewer, before)(page[i])
  {
    var page := PageOf(msgs, c, viewer, before, limit);
    forall i | 0 <= i < |page| ensures page[i] in multiset(msgs) && Listed(c, viewer, before)(page[i]) {
      assert page[i] in multiset(page);
      FilterMember(msgs, Listed(c, viewer, before), page[i]);
    }
  }

  /** Nothing the query selects is newer than the page while left off it. */
  lemma PageIsNewest(msgs: seq<Message>, c: ConvId, viewer: UserId, before: Option<Time>, limit: int)
    ensures var page := PageOf(msgs, c, viewer, before, limit);
      forall i :: 0 <= i < |msgs| && Listed(c, viewer, before)(msgs[i]) ==>
        msgs[i] in multiset(page) || forall k :: 0 <= k < |page| ==> msgs[i].createdAt <= page[k].createdAt
  {
    var listed := Filter(msgs, Listed(c, viewer, before));
    FilterContents(msgs, Listed(c, viewer, before));
    var sorted := SortDesc(listed, CreatedAt);
    var k := LimitCount(limit, |listed|);
    var page := PageOf(msgs, c, viewer, before, limit);
    forall i | 0 <= i < |msgs| && Listed(c, viewer, before)(msgs[i])
      ensures msgs[i] in multiset(page) || forall q :: 0 <= q < |page| ==> msgs[i].createdAt <= page[q].createdAt
    {
      assert msgs[i] in multiset(sorted);
      ReverseTakeLargest(sorted, CreatedAt, k, msgs[i]);
    }
  }

  /** How a stored message is shown to `viewer`: a tombstone hides its
      text and file link. */
  function ViewFor(m: Message, viewer: UserId): (v: MessageView)
    ensures v.id == m.id && v.sender == m.sender && v.createdAt == m.createdAt
    ensures v.isMine <==> m.sender == viewer
    ensures v.deleted == m.deleted
    ensures m.deleted ==> v.text == DeletedText && v.fileUrl == []
    ensures !m.deleted ==> v.text == m.text && v.fileUrl == m.fileUrl
    ensures v.readBy == m.readBy && v.deliveredTo == m.deliveredTo && v.reactions == m.reactions
  {
    MessageView(m.id, None, if m.deleted then DeletedText else m.text, m.mtype,
                if m.deleted then [] else m.fileUrl, m.fileName, m.fileSize, m.sender,
                m.replyTo, m.reactions, m.readBy, m.deliveredTo, m.deleted, m.edited,
                m.createdAt, m.sender == viewer, false)
  }

  function Views(page: seq<Message>, viewer: UserId): (vs: seq<MessageView>)
    ensures |vs| == |page| && forall i :: 0 <= i < |page| ==> vs[i] == ViewFor(page[i], viewer)
  {
    seq(|page|, i requires 0 <= i < |page| => ViewFor(page[i], viewer))
  }

  /** One message after `$push: { deliveredTo: { user: viewer } }` when it
      belongs to the conversation, was sent by someone else and lacks the
      viewer. */
  function DeliverOne(m: Message, c: ConvId, viewer: UserId): (r: Message)
    ensures r.(deliveredTo := m.deliveredTo) == m
    ensures m.conversationId == c && m.sender != viewer ==> viewer in r.deliveredTo
    ensures r.deliveredTo == m.deliveredTo || (viewer !in m.deliveredTo && r.deliveredTo == m.deliveredTo + [viewer])
    ensures m.conversationId != c || m.sender == viewer ==> r == m
  {
    if m.conversationId == c && m.sender != viewer && viewer !in m.deliveredTo
    then m.(deliveredTo := m.deliveredTo + [viewer])
    else m
  }

  /** The delivery update over the whole collection. */
  function DeliverAll(msgs: seq<Message>, c: ConvId, viewer: UserId): (r: seq<Message>)
    ensures |r| == |msgs| && forall i :: 0 <= i < |msgs| ==> r[i] == DeliverOne(msgs[i], c, viewer)
  {
    seq(|msgs|, i requires 0 <= i < |msgs| => DeliverOne(msgs[i], c, viewer))
  }

  /** GET /api/conversations/:id/messages. The page is read before the
      delivery update, so it shows the receipts as they were; the update
      covers the whole conversation, not only the page. */
  function FetchMessages(st: Store, c: ConvId, viewer: UserId, before: Option<Time>,
                         limit: Option<int>): (r: Step)
    ensures r.reply == Fail(NotFound) <==> !IsMember(st, c, viewer)
    ensures r.reply.Fail? ==> r.store == st
    ensures r.out == []
    ensures !r.reply.Fail? ==>
      var page := PageOf(st.msgs, c, viewer, before, if limit.Some? then limit.value else DefaultLimit);
      && r.reply == Page(Views(page, viewer))
      && r.store == st.(msgs := DeliverAll(st.msgs, c, viewer))
  {
    match FindMember(st, c, viewer)
    case None => Step(st, Fail(NotFound), [])
    case Some(_) =>
      var page := PageOf(st.msgs, c, viewer, before, if limit.Some? then limit.value else DefaultLimit);
      Step(st.(msgs := DeliverAll(st.msgs, c, viewer)), Page(Views(page, viewer)), [])
  }

  /** After a fetch the viewer appears exactly once in the delivery
      receipts of every message of the conversation sent by others. */
  lemma FetchDeliversOnce(st: Store, c: ConvId, viewer: UserId, before: Option<Time>,
                          limit: Option<int>, i: nat)
    requires Valid(st) && IsMember(st, c, viewer)
    requires i < |st.msgs| && st.msgs[i].conversationId == c && st.msgs[i].sender != viewer
    ensures multiset(FetchMessages(st, c, viewer, before, limit).store.msgs[i].deliveredTo)[viewer] == 1
  {
    var after := DeliverAll(st.msgs, c, viewer);
    assert MessageOk(st.msgs[i]);
    if viewer !in st.msgs[i].deliveredTo {
      NoDupSnoc(st.msgs[i].deliveredTo, viewer);
    }
    NoDupOccurrence(after[i].deliveredTo, viewer);
  }

  lemma FetchKeepsValid(st: Store, c: ConvId, viewer: UserId, before: Option<Time>, limit: Option<int>)
    requires Valid(st)
    ensures Valid(FetchMessages(st, c, viewer, before, limit).store)
  {
    DeliverAllValid(st, c, viewer);
  }

  lemma DeliverAllValid(st: Store, c: ConvId, viewer: UserId)
    requires Valid(st)
    ensures Valid(st.(msgs := DeliverAll(st.msgs, c, viewer)))
  {
    var r := DeliverAll(st.msgs, c, viewer);
    assert MsgIds(r) == MsgIds(st.msgs) by {
      forall i | 0 <= i < |r| ensures r[i].id == st.msgs[i].id {
        assert r[i].(deliveredTo := st.msgs[i].deliveredTo) == st.msgs[i];
      }
    }
    forall i | 0 <= i < |r| ensures MessageOk(r[i]) && r[i].conversationId == st.msgs[i].conversationId {
      assert r[i].(deliveredTo := st.msgs[i].deliveredTo) == st.msgs[i];
      assert MessageOk(st.msgs[i]);
      if viewer !in st.msgs[i].deliveredTo {
        NoDupSnoc(st.msgs[i].deliveredTo, viewer);
      }
    }
  }

  // ---------------------------------------------------------------
  // Delete, edit, react
  // ---------------------------------------------------------------

  /** DELETE /api/messages/:id. Only the sender's forEveryone request
      tombstones the message; any other request, forEveryone by someone
      else included, hides it for the requester alone. */
  function Delete(st: Store, id: MsgId, requester: UserId, forEveryone: bool): (r: Step)
    ensures r.reply == Fail(NotFound) <==> id !in MsgIds(st.msgs)
    ensures r.reply == Fail(NotFound) ==> r.store == st && r.out == []
    ensures r.reply != Fail(NotFound) ==>
      var i := FindMessage(st, id).value;
      var m := st.msgs[i];
      && |r.store.msgs| == |st.msgs|
      && r.store == st.(msgs := st.msgs[i := r.store.msgs[i]])
      && (if forEveryone && m.sender == requester then
            && r.store.msgs[i] == m.(deleted := true, text := [], fileUrl := [])
            && (r.reply == Success <==> m.conversationId in ConvIds(st.convs))
            && (r.reply != Success ==> r.reply == Fail(ServerError) && r.out == [])
            && (forall e :: e in r.out ==>
                  && e.event == MessageDeleted(id, m.conversationId) && e.target.ToUser?
                  && m.conversationId in ConvIds(st.convs)
                  && e.target.user in st.convs[FindConv(st, m.conversationId).value].participants)
          else
            && r.store.msgs[i] == m.(deletedFor := m.deletedFor + [requester])
            && r.reply == Success && r.out == [])
  {
    match FindMessage(st, id)
    case None => Step(st, Fail(NotFound), [])
    case Some(i) =>
      var m := st.msgs[i];
      if forEveryone && m.sender == requester then
        var st1 := st.(msgs := st.msgs[i := m.(deleted := true, text := [], fileUrl := [])]);
        match FindConv(st, m.conversationId)
        case None => Step(st1, Fail(ServerError), [])
        case Some(j) =>
          Step(st1, Success, FanOut(st.convs[j].participants, None, MessageDeleted(id, m.conversationId)))
      else
        Step(st.(msgs := st.msgs[i := m.(deletedFor := m.deletedFor + [requester])]), Success, [])
  }

  /** A successful delete-for-everyone tells every participant entry. */
  lemma DeleteForEveryoneTellsAll(st: Store, id: MsgId, requester: UserId, j: nat)
    requires id in MsgIds(st.msgs)
    requires var m := st.msgs[FindMessage(st, id).value];
      m.sender == requester && j < |st.convs| && st.convs[j].id == m.conversationId
    ensures var m := st.msgs[FindMessage(st, id).value];
      var r := Delete(st, id, requester, true);
      r.reply == Success && forall p :: p in st.convs[FindConv(st, m.conversationId).value].participants ==>
        Emit(ToUser(p), MessageDeleted(id, m.conversationId)) in r.out
  {
  }

  lemma DeleteKeepsValid(st: Store, id: MsgId, requester: UserId, forEveryone: bool)
    requires Valid(st)
    ensures Valid(Delete(st, id, requester, forEveryone).store)
  {
    match FindMessage(st, id)
    case None =>
    case Some(i) =>
      var m := st.msgs[i];
      assert MessageOk(m);
      if forEveryone && m.sender == requester {
        ReplaceMessageValid(st, i, m.(deleted := true, text := [], fileUrl := []));
      } else {
        ReplaceMessageValid(st, i, m.(deletedFor := m.deletedFor + [requester]));
      }
  }

  /** After hiding a message for themselves, the requester no longer
      receives it from fetch. */
  lemma DeleteForMeHidesFromFetch(st: Store, id: MsgId, requester: UserId, forEveryone: bool,
                                  c: ConvId, before: Option<Time>, limit: Option<int>)
    requires NoDup(MsgIds(st.msgs)) && id in MsgIds(st.msgs)
    requires !(forEveryone && st.msgs[FindMessage(st, id).value].sender == requester)
    ensures var after := Delete(st, id, requester, forEveryone).store;
      var r := FetchMessages(after, c, requester, before, limit);
      r.reply.Page? ==> forall k :: 0 <= k < |r.reply.messages| ==> r.reply.messages[k].id != id
  {
    var i := FindMessage(st, id).value;
    var m := st.msgs[i];
    var after := st.(msgs := st.msgs[i := m.(deletedFor := m.deletedFor + [requester])]);
    assert Delete(st, id, requester, forEveryone).store == after;
    forall q | 0 <= q < |after.msgs| && after.msgs[q].id == id
      ensures requester in after.msgs[q].deletedFor
    {
      assert q == i by {
        assert MsgIds(st.msgs)[q] == MsgIds(st.msgs)[i];
      }
    }
    var lim := if limit.Some? then limit.value else DefaultLimit;
    HiddenOffPage(after.msgs, id, requester, c, before, lim);
  }

  /** A message hidden from the viewer never makes it onto their page. */
  lemma HiddenOffPage(msgs: seq<Message>, id: MsgId, viewer: UserId, c: ConvId,
                      before: Option<Time>, lim: int)
    requires forall q :: 0 <= q < |msgs| && msgs[q].id == id ==> viewer in msgs[q].deletedFor
    ensures var page := PageOf(msgs, c, viewer, before, lim);
      forall k :: 0 <= k < |page| ==> page[k].id != id
  {
    var page := PageOf(msgs, c, viewer, before, lim);
    PageIsListed(msgs, c, viewer, before, lim);
    forall k | 0 <= k < |page| ensures page[k].id != id {
      var q :| 0 <= q < |msgs| && msgs[q] == page[k];
    }
  }

  /** `findOne({ _id: id, sender: requester })`. */
  function SentBy(id: MsgId, requester: UserId): Message -> bool {
    (m: Message) => m.id == id && m.sender == requester
  }

  /** PUT /api/messages/:id. Only the sender may edit; a tombstoned
      message is not refused. */
  function Edit(st: Store, id: MsgId, requester: UserId, text: string, now: Time): (r: Step)
    ensures r.reply == Fail(NotFound) <==>
      forall i :: 0 <= i < |st.msgs| ==> !(st.msgs[i].id == id && st.msgs[i].sender == requester)
    ensures r.reply == Fail(NotFound) ==> r.store == st && r.out == []
    ensures r.reply != Fail(NotFound) ==>
      exists i :: 0 <= i < |st.msgs| && st.msgs[i].id == id && st.msgs[i].sender == requester
        && r.store == st.(msgs := st.msgs[i := st.msgs[i].(text := text, edited := true, editedAt := Some(now))])
        && forall e :: e in r.out ==> e.event == MessageEdited(id, st.msgs[i].conversationId, text)
    ensures r.reply != Fail(NotFound) ==>
      var m := st.msgs[FirstIndex(st.msgs, SentBy(id, requester)).value];
      && (r.reply == Success <==> m.conversationId in ConvIds(st.convs))
      && (r.reply != Success ==> r.reply == Fail(ServerError) && r.out == [])
      && (forall e :: e in r.out ==>
            && e.target.ToUser? && m.conversationId in ConvIds(st.convs)
            && e.target.user in st.convs[FindConv(st, m.conversationId).value].participants)
      && (m.conversationId in ConvIds(st.convs) ==>
           forall p :: p in st.convs[FindConv(st, m.conversationId).value].participants ==>
             Emit(ToUser(p), MessageEdited(id, m.conversationId, text)) in r.out)
  {
    var f := FirstIndex(st.msgs, SentBy(id, requester));
    match f
    case None => Step(st, Fail(NotFound), [])
    case Some(i) =>
      var m := st.msgs[i];
      var st1 := st.(msgs := st.msgs[i := m.(text := text, edited := true, editedAt := Some(now))]);
      match FindConv(st, m.conversationId)
      case None => Step(st1, Fail(ServerError), [])
      case Some(j) =>
        Step(st1, Success, FanOut(st.convs[j].participants, None, MessageEdited(id, m.conversationId, text)))
  }

  lemma EditKeepsValid(st: Store, id: MsgId, requester: UserId, text: string, now: Time)
    requires Valid(st)
    ensures Valid(Edit(st, id, requester, text, now).store)
  {
    match FirstIndex(st.msgs, SentBy(id, requester))
    case None =>
    case Some(i) =>
      var m := st.msgs[i];
      assert MessageOk(m);
      ReplaceMessageValid(st, i, m.(text := text, edited := true, editedAt := Some(now)));
  }

  /** The edit route writes text into a tombstone: after the sender
      deletes a message for everyone and then edits it, the stored
      message is deleted yet carries the new text. Fetch still masks it. */
  lemma EditAfterDeleteRevivesText(st: Store, id: MsgId, sender: UserId, text: string, now: Time,
                                   viewer: UserId)
    requires NoDup(MsgIds(st.msgs)) && id in MsgIds(st.msgs)
    requires st.msgs[FindMessage(st, id).value].sender == sender
    ensures var i := FindMessage(st, id).value;
      var after := Edit(Delete(st, id, sender, true).store, id, sender, text, now).store;
      && after.msgs[i].deleted && after.msgs[i].text == text
      && ViewFor(after.msgs[i], viewer).text == DeletedText
  {
    var i := FindMessage(st, id).value;
    var m := st.msgs[i];
    var st1 := Delete(st, id, sender, true).store;
    assert st1.msgs == st.msgs[i := m.(deleted := true, text := [], fileUrl := [])];
    forall q | 0 <= q < |st1.msgs| && SentBy(id, sender)(st1.msgs[q]) ensures q == i {
      assert MsgIds(st.msgs)[q] == MsgIds(st.msgs)[i];
    }
    assert FirstIndex(st1.msgs, SentBy(id, sender)) == Some(i);
  }

  function NotBy(user: UserId): Reaction -> bool {
    (x: Reaction) => x.user != user
  }

  /** The reactions after `user` reacts with `emoji` ("" removes). */
  function Rereact(rs: seq<Reaction>, user: UserId, emoji: string): (r: seq<Reaction>)
    ensures Filter(r, NotBy(user)) == Filter(rs, NotBy(user))
    ensures emoji != [] ==> |r| > 0 && r[|r| - 1] == Reaction(user, emoji)
    ensures emoji != [] ==> forall i :: 0 <= i < |r| - 1 ==> r[i].user != user
    ensures emoji == [] ==> forall i :: 0 <= i < |r| ==> r[i].user != user
    ensures OneReactionPerUser(rs) ==> OneReactionPerUser(r)
  {
    var others := Filter(rs, NotBy(user));
    FilterTwice(rs, NotBy(user));
    OthersOnePerUser(rs, user);
    if emoji == [] then others
    else
      FilterSnoc(others, Reaction(user, emoji), NotBy(user));
      others + [Reaction(user, emoji)]
  }

  /** Dropping one user's reactions keeps one reaction per user. */
  lemma OthersOnePerUser(rs: seq<Reaction>, user: UserId)
    ensures OneReactionPerUser(rs) ==> OneReactionPerUser(Filter(rs, NotBy(user)))
  {
    var others := Filter(rs, NotBy(user));
    if OneReactionPerUser(rs) {
      forall i, j | 0 <= i < j < |others| ensures others[i].user != others[j].user {
        FilterOrder(rs, NotBy(user), i, j);
      }
    }
  }

  /** POST /api/messages/:id/reaction: replaces the user's reaction and
      broadcasts the whole list to every participant. */
  function React(st: Store, id: MsgId, user: UserId, emoji: string): (r: Step)
    ensures r.reply == Fail(NotFound) <==> id !in MsgIds(st.msgs)
    ensures r.reply == Fail(NotFound) ==> r.store == st && r.out == []
    ensures r.reply != Fail(NotFound) ==>
      var i := FindMessage(st, id).value;
      var m := st.msgs[i];
      && r.store == st.(msgs := st.msgs[i := m.(reactions := Rereact(m.reactions, user, emoji))])
      && (r.reply == Success <==> m.conversationId in ConvIds(st.convs))
      && (r.reply != Success ==> r.reply == Fail(ServerError) && r.out == [])
      && (forall e :: e in r.out ==>
           && e.event == MessageReaction(id, m.conversationId, Rereact(m.reactions, user, emoji))
           && e.target.ToUser? && m.conversationId in ConvIds(st.convs)
           && e.target.user in st.convs[FindConv(st, m.conversationId).value].participants)
      && (m.conversationId in ConvIds(st.convs) ==>
           forall p :: p in st.convs[FindConv(st, m.conversationId).value].participants ==>
             Emit(ToUser(p), MessageReaction(id, m.conversationId, Rereact(m.reactions, user, emoji))) in r.out)
  {
    match FindMessage(st, id)
    case None => Step(st, Fail(NotFound), [])
    case Some(i) =>
      var m := st.msgs[i];
      var rs := Rereact(m.reactions, user, emoji);
      var st1 := st.(msgs := st.msgs[i := m.(reactions := rs)]);
      match FindConv(st, m.conversationId)
      case None => Step(st1, Fail(ServerError), [])
      case Some(j) =>
        Step(st1, Success, FanOut(st.convs[j].participants, None, MessageReaction(id, m.conversationId, rs)))
  }

  lemma ReactKeepsValid(st: Store, id: MsgId, user: UserId, emoji: string)
    requires Valid(st)
    ensures Valid(React(st, id, user, emoji).store)
  {
    match FindMessage(st, id)
    case None =>
    case Some(i) =>
      var m := st.msgs[i];
      assert MessageOk(m);
      ReplaceMessageValid(st, i, m.(reactions := Rereact(m.reactions, user, emoji)));
  }

  /** Reacting with one emoji and then another leaves exactly one entry
      for the user, carrying the second emoji. */
  lemma ReactTwiceKeepsLatest(rs: seq<Reaction>, user: UserId, first: string, second: string)
    requires second != []
    ensures var r := Rereact(Rereact(rs, user, first), user, second);
      && r[|r| - 1] == Reaction(user, second)
      && (forall i :: 0 <= i < |r| - 1 ==> r[i].user != user)
      && Filter(r, NotBy(user)) == Filter(rs, NotBy(user))
  {
  }
}

=== FILE: presence.dfy ===
/** The socket handlers of backend/server.js: `user_online`, `typing` and
    `disconnect`, over the `onlineUsers` map and the user of each socket. */
module Presence {
  import opened Base
  import opened Records

  /** `onlineUsers` (one socket per user) and `socket.userId` of each
      connected socket. */
  datatype Registry = Registry(online: map<UserId, SocketId>, bound: map<SocketId, UserId>)

  /** What a socket handler leaves behind. */
  datatype Tick = Tick(reg: Registry, store: Store, out: seq<Emit>)

  /** `User.findByIdAndUpdate(u, { online, lastSeen: now })`; an unknown
      user is left alone. */
  function SetStatus(users: map<UserId, Profile>, u: UserId, online: bool, now: Time): (r: map<UserId, Profile>)
    ensures r.Keys == users.Keys
    ensures u in users ==> r[u] == users[u].(online := online, lastSeen := Some(now))
    ensures forall v :: v in users && v != u ==> r[v] == users[v]
  {
    if u in users then users[u := users[u].(online := online, lastSeen := Some(now))] else users
  }

  /** `user_online`: the socket becomes the user's one socket and the
      user is announced online to every client. */
  function UserOnline(reg: Registry, st: Store, s: SocketId, u: UserId, now: Time): (r: Tick)
    ensures u in r.reg.online && r.reg.online[u] == s
    ensures s in r.reg.bound && r.reg.bound[s] == u
    ensures forall v :: v != u ==> (v in r.reg.online <==> v in reg.online)
    ensures forall t :: t != s ==> (t in r.reg.bound <==> t in reg.bound)
    ensures r.store == st.(users := SetStatus(st.users, u, true, now))
    ensures r.out == [Emit(ToAll, UserStatus(u, true, None))]
  {
    Tick(Registry(reg.online[u := s], reg.bound[s := u]),
         st.(users := SetStatus(st.users, u, true, now)),
         [Emit(ToAll, UserStatus(u, true, None))])
  }

  /** `typing`: relayed to every participant entry except the socket's
      user; an unbound socket relays to all of them with no user, and
      the typist's name is not relayed. */
  function Typing(reg: Registry, st: Store, s: SocketId, c: ConvId, isTyping: bool): (r: seq<Emit>)
    ensures c !in ConvIds(st.convs) ==> r == []
    ensures forall e :: e in r ==>
      && e.target.ToUser?
      && e.event == UserTyping(c, if s in reg.bound then Some(reg.bound[s]) else None, [], isTyping)
      && (s in reg.bound ==> e.target.user != reg.bound[s])
      && e.target.user in st.convs[FindConv(st, c).value].participants
    ensures c in ConvIds(st.convs) ==>
      forall p :: (p in st.convs[FindConv(st, c).value].participants
                   && (s !in reg.bound || p != reg.bound[s])) ==>
        Emit(ToUser(p), UserTyping(c, if s in reg.bound then Some(reg.bound[s]) else None, [], isTyping)) in r
  {
    var typist := if s in reg.bound then Some(reg.bound[s]) else None;
    match FindConv(st, c)
    case None => []
    case Some(j) => FanOut(st.convs[j].participants, typist, UserTyping(c, typist, [], isTyping))
  }

  /** `disconnect`: a bound socket takes its user off the map, whatever
      socket the map holds for them, and announces them offline; the
      closed socket is gone. */
  function Disconnect(reg: Registry, st: Store, s: SocketId, now: Time): (r: Tick)
    ensures s !in reg.bound ==> r == Tick(reg, st, [])
    ensures s in reg.bound ==>
      var u := reg.bound[s];
      && u !in r.reg.online
      && (forall v :: v != u ==> (v in r.reg.online <==> v in reg.online))
      && s !in r.reg.bound
      && r.reg.bound == reg.bound - {s}
      && r.store == st.(users := SetStatus(st.users, u, false, now))
      && r.out == [Emit(ToAll, UserStatus(u, false, Some(now)))]
  {
    if s in reg.bound then
      var u := reg.bound[s];
      Tick(Registry(reg.online - {u}, reg.bound - {s}),
           st.(users := SetStatus(st.users, u, false, now)),
           [Emit(ToAll, UserStatus(u, false, Some(now)))])
    else Tick(reg, st, [])
  }

  /** One socket per user: when a user is online on two sockets and the
      first one closes, the user is reported offline although the
      second socket is still connected. */
  lemma SecondSocketLost(reg: Registry, st: Store, s1: SocketId, s2: SocketId, u: UserId,
                         t1: Time, t2: Time, t3: Time)
    requires s1 != s2 && u in st.users
    ensures var a := UserOnline(reg, st, s1, u, t1);
      var b := UserOnline(a.reg, a.store, s2, u, t2);
      var c := Disconnect(b.reg, b.store, s1, t3);
      && s2 in c.reg.bound && c.reg.bound[s2] == u
      && u !in c.reg.online
      && !c.store.users[u].online
      && c.out == [Emit(ToAll, UserStatus(u, false, Some(t3)))]
  {
  }

  /** Connecting and then disconnecting the same socket leaves the user
      offline and every other user's entry as it was. */
  lemma OnlineThenOffline(reg: Registry, st: Store, s: SocketId, u: UserId, t1: Time, t2: Time)
    ensures var a := UserOnline(reg, st, s, u, t1);
      var b := Disconnect(a.reg, a.store, s, t2);
      && u !in b.reg.online
      && (forall v :: v != u ==> (v in b.reg.online <==> v in reg.online))
      && (u in st.users ==> !b.store.users[u].online && b.store.users[u].lastSeen == Some(t2))
      && (forall v :: v in st.users && v != u ==> b.store.users[v] == st.users[v])
  {
  }
}

=== FILE: records.dfy ===
/** The records the chat server keeps and the messages it exchanges with
    clients: conversations (shaped after backend/models/Conversation.js),
    messages, user profiles, the store holding them, the socket events,
    and the HTTP replies. */
module Records {
  import opened Base

  type UserId = nat
  type ConvId = nat
  type MsgId = nat
  type SocketId = nat
  /** Milliseconds since the epoch. */
  type Time = nat

  datatype ConvType = Private | Group

  datatype MsgType = Text | Image | Video | Audio | File | System

  /** One `mutedBy` entry. */
  datatype MuteEntry = MuteEntry(user: UserId, until: Time)

  datatype Conversation = Conversation(
    id: ConvId,
    ctype: ConvType,
    participants: seq<UserId>,
    groupName: string,
    groupAvatar: string,
    groupDescription: string,
    admins: seq<UserId>,
    createdBy: Option<UserId>,
    lastMessage: Option<MsgId>,
    mutedBy: seq<MuteEntry>,
    archivedBy: seq<UserId>,
    createdAt: Time,
    updatedAt: Time)

  datatype Reaction = Reaction(user: UserId, emoji: string)

  /** A stored message. `readBy` and `deliveredTo` hold the user of each
      `{ user }` receipt entry. */
  datatype Message = Message(
    id: MsgId,
    conversationId: ConvId,
    sender: UserId,
    text: string,
    mtype: MsgType,
    fileUrl: string,
    fileName: string,
    fileSize: nat,
    replyTo: Option<MsgId>,
    reactions: seq<Reaction>,
    readBy: seq<UserId>,
    deliveredTo: seq<UserId>,
    deleted: bool,
    deletedFor: seq<UserId>,
    edited: bool,
    editedAt: Option<Time>,
    createdAt: Time)

  /** The user fields the handlers read or write. */
  datatype Profile = Profile(name: string, avatar: string, online: bool, lastSeen: Option<Time>)

  /** The database: both collections in natural (insertion) order, the
      user documents, and the next fresh object id. */
  datatype Store = Store(
    convs: seq<Conversation>,
    msgs: seq<Message>,
    users: map<UserId, Profile>,
    nextId: nat)

  /** A message as a client holds it: the JSON the server sends, with a
      field the server leaves out read as its empty value (JavaScript
      treats both as falsy). */
  datatype MessageView = MessageView(
    id: MsgId,
    conversationId: Option<ConvId>,
    text: string,
    mtype: MsgType,
    fileUrl: string,
    fileName: string,
    fileSize: nat,
    sender: UserId,
    replyTo: Option<MsgId>,
    reactions: seq<Reaction>,
    readBy: seq<UserId>,
    deliveredTo: seq<UserId>,
    deleted: bool,
    edited: bool,
    createdAt: Time,
    isMine: bool,
    viewed: bool)

  /** Socket.io events; a payload field the sender omits is `None`/"". */
  datatype Event =
    | NewMessage(message: MessageView)
    | MessagesRead(conversationId: ConvId, readBy: UserId, messageIds: Option<seq<MsgId>>)
    | MessageDeleted(messageId: MsgId, conversationId: ConvId)
    | MessageEdited(messageId: MsgId, conversationId: ConvId, text: string)
    | MessageReaction(messageId: MsgId, conversationId: ConvId, reactions: seq<Reaction>)
    | MediaViewed(messageId: MsgId)
    | MediaExpired(messageId: MsgId, conversationId: ConvId)
    | UserStatus(userId: UserId, online: bool, lastSeen: Option<Time>)
    | OnlineUsers(userIds: seq<UserId>)
    | UserTyping(conversationId: ConvId, typist: Option<UserId>, userName: string, isTyping: bool)

  /** `io.to(user)` (the user's room) or `io.emit` (every socket). */
  datatype Target = ToUser(user: UserId) | ToAll

  datatype Emit = Emit(target: Target, event: Event)

  /** The preview of a conversation's last message. */
  datatype Preview = Preview(text: string, mtype: MsgType, sender: UserId, createdAt: Time)

  /** One entry of the conversation list, for one viewer. */
  datatype Summary = Summary(
    id: ConvId,
    name: string,
    avatar: string,
    isGroup: bool,
    online: bool,
    lastSeen: Option<Time>,
    participantId: Option<UserId>,
    ctype: ConvType,
    participants: seq<UserId>,
    lastMessage: Option<Preview>,
    unreadCount: nat,
    isMuted: bool,
    updatedAt: Time)

  datatype Failure = NotFound | BadRequest | ServerError

  /** The JSON body of an HTTP reply. */
  datatype Reply =
    | Fail(failure: Failure)
    | Sent(message: MessageView)
    | Page(messages: seq<MessageView>)
    | Updated(count: nat)
    | Success
    | Archived(archived: bool)
    | Muted(muted: bool)
    | Conversations(list: seq<Summary>)
    /** The open-direct reply: the other member and their profile
        (name, avatar, online flag, last seen), when there is one. */
    | Opened(id: ConvId, participantId: Option<UserId>, profile: Option<Profile>)
    | GroupCreated(id: ConvId, name: string, participants: seq<UserId>)

  /** What a handler leaves behind: the store, the reply, the emits. */
  datatype Step = Step(store: Store, reply: Reply, out: seq<Emit>)

  // ---------------------------------------------------------------
  // Queries used as Mongo filters
  // ---------------------------------------------------------------

  /** The ids of a collection, in order. `ConvIds`, `MsgIds` and the
      client's `Timeline.ViewIds` are the same projection over three
      record types; Dafny datatypes share no `id` field, so each record
      type gets its own. */
  function ConvIds(convs: seq<Conversation>): (r: seq<ConvId>)
    ensures |r| == |convs| && forall i :: 0 <= i < |convs| ==> r[i] == convs[i].id
  {
    seq(|convs|, i requires 0 <= i < |convs| => convs[i].id)
  }

  function MsgIds(msgs: seq<Message>): (r: seq<MsgId>)
    ensures |r| == |msgs| && forall i :: 0 <= i < |msgs| ==> r[i] == msgs[i].id
  {
    seq(|msgs|, i requires 0 <= i < |msgs| => msgs[i].id)
  }

  function ConvWithId(id: ConvId): Conversation -> bool {
    (c: Conversation) => c.id == id
  }

  /** `{ _id: id, participants: user }`. */
  function ConvWithMember(id: ConvId, user: UserId): Conversation -> bool {
    (c: Conversation) => c.id == id && user in c.participants
  }

  function MsgWithId(id: MsgId): Message -> bool {
    (m: Message) => m.id == id
  }

  /** The users populate() resolves, in order: ids without a user
      document are dropped. */
  function Populate(ids: seq<UserId>, users: map<UserId, Profile>): (r: seq<UserId>)
    ensures forall i :: 0 <= i < |r| ==> r[i] in users && r[i] in ids
    ensures forall i :: 0 <= i < |ids| && ids[i] in users ==> ids[i] in r
  {
    var r := Filter(ids, Known(users));
    FilterContents(ids, Known(users));
    assert forall i :: 0 <= i < |r| ==> r[i] in multiset(ids);
    assert forall i :: 0 <= i < |ids| && ids[i] in users ==> ids[i] in multiset(r);
    r
  }

  function Known(users: map<UserId, Profile>): UserId -> bool {
    (u: UserId) => u in users
  }

  /** Each user reacts at most once. */
  predicate OneReactionPerUser(rs: seq<Reaction>) {
    forall i, j :: 0 <= i < j < |rs| ==> rs[i].user != rs[j].user
  }

  /** What every stored message keeps: receipts name a user once, and a
      user has at most one reaction. */
  predicate MessageOk(m: Message) {
    NoDup(m.readBy) && NoDup(m.deliveredTo) && OneReactionPerUser(m.reactions)
  }

  /** The store invariant every handler preserves: object ids are unique
      and below the allocator, every message belongs to a stored
      conversation and keeps MessageOk. */
  predicate Valid(st: Store) {
    && NoDup(ConvIds(st.convs))
    && NoDup(MsgIds(st.msgs))
    && (forall i :: 0 <= i < |st.convs| ==> st.convs[i].id < st.nextId)
    && (forall i :: 0 <= i < |st.msgs| ==> st.msgs[i].id < st.nextId)
    && (forall i :: 0 <= i < |st.msgs| ==> st.msgs[i].conversationId in ConvIds(st.convs))
    && (forall i :: 0 <= i < |st.msgs| ==> MessageOk(st.msgs[i]))
  }

  /** Replacing one message by one with the same id and conversation that
      keeps MessageOk preserves Valid. */
  lemma ReplaceMessageValid(st: Store, i: nat, m: Message)
    requires Valid(st) && i < |st.msgs|
    requires m.id == st.msgs[i].id && m.conversationId == st.msgs[i].conversationId
    requires MessageOk(m)
    ensures Valid(st.(msgs := st.msgs[i := m]))
  {
    assert MsgIds(st.msgs[i := m]) == MsgIds(st.msgs);
  }

  /** Replacing one conversation by one with the same id preserves Valid. */
  lemma ReplaceConvValid(st: Store, j: nat, c: Conversation)
    requires Valid(st) && j < |st.convs|
    requires c.id == st.convs[j].id
    ensures Valid(st.(convs := st.convs[j := c]))
    ensures ConvIds(st.convs[j := c]) == ConvIds(st.convs)
  {
    assert ConvIds(st.convs[j := c]) == ConvIds(st.convs);
  }

  /** A message with a fresh id in a stored conversation may be appended. */
  lemma AppendMessageValid(st: Store, m: Message)
    requires Valid(st)
    requires m.id == st.nextId && m.conversationId in ConvIds(st.convs)
    requires MessageOk(m)
    ensures Valid(st.(msgs := st.msgs + [m], nextId := st.nextId + 1))
  {
    var ids := MsgIds(st.msgs + [m]);
    assert ids == MsgIds(st.msgs) + [m.id];
  }

  /** A conversation with a fresh id may be appended. */
  lemma AppendConvValid(st: Store, c: Conversation)
    requires Valid(st)
    requires c.id == st.nextId
    ensures Valid(st.(convs := st.convs + [c], nextId := st.nextId + 1))
    ensures forall x :: x in ConvIds(st.convs) ==> x in ConvIds(st.convs + [c])
    ensures c.id in ConvIds(st.convs + [c])
  {
    var ids := ConvIds(st.convs + [c]);
    assert ids == ConvIds(st.convs) + [c.id];
  }

  /** Under Valid, the first message with an id is the only one. */
  lemma UniqueMessage(st: Store, i: nat, j: nat)
    requires Valid(st) && i < |st.msgs| && j < |st.msgs|
    requires st.msgs[i].id == st.msgs[j].id
    ensures i == j
  {
    assert MsgIds(st.msgs)[i] == st.msgs[i].id;
    assert MsgIds(st.msgs)[j] == st.msgs[j].id;
  }

  /** Every message of a Valid store names a stored conversation, so a
      conversation id absent from the store has no messages. */
  lemma NoMessagesOfMissingConv(st: Store, c: ConvId)
    requires Valid(st)
    requires c !in ConvIds(st.convs)
    ensures forall i :: 0 <= i < |st.msgs| ==> st.msgs[i].conversationId != c
  {
  }

  /** `conv.save()` under the schema's `timestamps` option: a changed
      document gets `updatedAt = now`, an unchanged one is not written. */
  function SaveConv(before: Conversation, after: Conversation, now: Time): (c: Conversation)
    ensures c.(updatedAt := after.updatedAt) == after
    ensures after != before ==> c.updatedAt == now
    ensures after == before ==> c == before
  {
    if after == before then before else after.(updatedAt := now)
  }

  /** `user` takes part in the stored conversation `c`. */
  predicate IsMember(st: Store, c: ConvId, user: UserId) {
    exists j :: 0 <= j < |st.convs| && st.convs[j].id == c && user in st.convs[j].participants
  }

  /** The conversation lookup `findOne({ _id: c, participants: user })`. */
  function FindMember(st: Store, c: ConvId, user: UserId): (r: Option<nat>)
    ensures r.Some? ==> r.value < |st.convs| && st.convs[r.value].id == c
                        && user in st.convs[r.value].participants
    ensures r.None? <==> !IsMember(st, c, user)
  {
    var r := FirstIndex(st.convs, ConvWithMember(c, user));
    assert r.None? ==> forall j :: 0 <= j < |st.convs| ==> !ConvWithMember(c, user)(st.convs[j]);
    r
  }

  /** The lookup `findById(c)`. */
  function FindConv(st: Store, c: ConvId): (r: Option<nat>)
    ensures r.Some? ==> r.value < |st.convs| && st.convs[r.value].id == c
    ensures r.None? <==> c !in ConvIds(st.convs)
  {
    var r := FirstIndex(st.convs, ConvWithId(c));
    assert r.None? ==> forall j :: 0 <= j < |st.convs| ==> !ConvWithId(c)(st.convs[j]);
    r
  }

  /** The lookup `findById(id)` on messages. */
  function FindMessage(st: Store, id: MsgId): (r: Option<nat>)
    ensures r.Some? ==> r.value < |st.msgs| && st.msgs[r.value].id == id
    ensures r.None? <==> id !in MsgIds(st.msgs)
  {
    var r := FirstIndex(st.msgs, MsgWithId(id));
    assert r.None? ==> forall j :: 0 <= j < |st.msgs| ==> !MsgWithId(id)(st.msgs[j]);
    r
  }

  /** `conv.participants.forEach(p => { if (p !== exclude) io.to(p).emit(ev) })`:
      one emit per participant entry other than `exclude`, in order. */
  function FanOut(ps: seq<UserId>, exclude: Option<UserId>, ev: Event): (r: seq<Emit>)
    ensures |r| <= |ps|
    ensures forall k :: 0 <= k < |r| ==> r[k].event == ev && r[k].target.ToUser?
    ensures forall k :: 0 <= k < |r| ==> r[k].target.user in ps && Some(r[k].target.user) != exclude
    ensures forall p :: p in ps && Some(p) != exclude ==> Emit(ToUser(p), ev) in r
    ensures exclude.None? ==> |r| == |ps|
  {
    if |ps| == 0 then []
    else
      var rest := FanOut(ps[1..], exclude, ev);
      assert forall p :: p in ps ==> p == ps[0] || p in ps[1..];
      (if Some(ps[0]) == exclude then [] else [Emit(ToUser(ps[0]), ev)]) + rest
  }
}

=== FILE: sorting.dfy ===
/** The `.sort({ field: -1 })` and `.limit(n)` cursor steps of the
    original's Mongo queries, over sequences and an integer sort key. */
module Sorting {

  /** Keys do not increase from left to right. */
  predicate SortedDesc<T>(s: seq<T>, key: T -> int) {
    forall i, j :: 0 <= i < j < |s| ==> key(s[i]) >= key(s[j])
  }

  /** Keys do not decrease from left to right. */
  predicate SortedAsc<T>(s: seq<T>, key: T -> int) {
    forall i, j :: 0 <= i < j < |s| ==> key(s[i]) <= key(s[j])
  }

  /** Every element of `s` has a key at least `k`. */
  predicate AllAtLeast<T>(s: seq<T>, key: T -> int, k: int) {
    forall i :: 0 <= i < |s| ==> key(s[i]) >= k
  }

  /** Every element of `s` has a key at most `k`. */
  predicate AllAtMost<T>(s: seq<T>, key: T -> int, k: int) {
    forall i :: 0 <= i < |s| ==> key(s[i]) <= k
  }

  /** A bound on every key survives reordering. */
  lemma AtMostPermutation<T>(a: seq<T>, b: seq<T>, key: T -> int, k: int)
    requires multiset(a) == multiset(b)
    requires AllAtMost(a, key, k)
    ensures AllAtMost(b, key, k)
  {
    forall j | 0 <= j < |b|
      ensures key(b[j]) <= k
    {
      assert b[j] in multiset(a);
      var i :| 0 <= i < |a| && a[i] == b[j];
    }
  }

  function Insert<T>(x: T, s: seq<T>, key: T -> int): (r: seq<T>)
    requires SortedDesc(s, key)
    ensures SortedDesc(r, key)
    ensures multiset(r) == multiset(s) + multiset{x}
    ensures |r| == |s| + 1
  {
    if |s| == 0 || key(s[0]) <= key(x) then
      [x] + s
    else
      var t := Insert(x, s[1..], key);
      assert s == [s[0]] + s[1..];
      assert AllAtMost(s[1..] + [x], key, key(s[0]));
      AtMostPermutation(s[1..] + [x], t, key, key(s[0]));
      [s[0]] + t
  }

  /** A stable insertion sort, largest key first (`sort({ key: -1 })`). */
  function SortDesc<T>(s: seq<T>, key: T -> int): (r: seq<T>)
    ensures SortedDesc(r, key)
    ensures multiset(r) == multiset(s)
    ensures |r| == |s|
  {
    if |s| == 0 then []
    else
      assert s == [s[0]] + s[1..];
      Insert(s[0], SortDesc(s[1..], key), key)
  }

  function Reverse<T>(s: seq<T>): (r: seq<T>)
    ensures |r| == |s|
    ensures forall i :: 0 <= i < |s| ==> r[i] == s[|s| - 1 - i]
    ensures multiset(r) == multiset(s)
  {
    if |s| == 0 then []
    else
      assert s == [s[0]] + s[1..];
      Reverse(s[1..]) + [s[0]]
  }

  /** Mongo's `.limit(n)`: zero means no limit, a negative limit acts as
      its absolute value. */
  function LimitCount(n: int, available: nat): (k: nat)
    ensures k <= available
    ensures n == 0 ==> k == available
    ensures n != 0 ==> k <= (if n < 0 then -n else n) && (k == available || k == (if n < 0 then -n else n))
  {
    if n == 0 then available
    else
      var m := if n < 0 then -n else n;
      if available < m then available else m
  }

  /** Reversing a descending sequence gives an ascending one. */
  lemma ReverseSortedDesc<T>(s: seq<T>, key: T -> int)
    requires SortedDesc(s, key)
    ensures SortedAsc(Reverse(s), key)
  {
  }

  /** The first `k` elements of a descending sequence are its `k` largest:
      everything dropped has a key no larger than anything kept. */
  lemma TakeIsNewest<T>(s: seq<T>, key: T -> int, k: nat, x: T)
    requires SortedDesc(s, key)
    requires k <= |s|
    requires x in multiset(s)
    ensures x in multiset(s[..k]) || forall i :: 0 <= i < k ==> key(x) <= key(s[i])
  {
    assert s == s[..k] + s[k..];
    if x !in multiset(s[..k]) {
      assert x in multiset(s[k..]);
      var j :| 0 <= j < |s[k..]| && s[k..][j] == x;
      assert s[k + j] == x;
    }
  }

  /** An element of a descending `t` that is not among its first `k` has
      a key no larger than any of them, also once they are reversed. */
  lemma ReverseTakeLargest<T>(t: seq<T>, key: T -> int, k: nat, x: T)
    requires SortedDesc(t, key) && k <= |t| && x in multiset(t)
    ensures var r := Reverse(t[..k]);
      x in multiset(r) || forall q :: 0 <= q < |r| ==> key(x) <= key(r[q])
  {
    var newest := t[..k];
    TakeIsNewest(t, key, k, x);
    if x in multiset(newest) {
      var q :| 0 <= q < k && newest[q] == x;
      ReverseKeeps(newest, q);
    } else {
      assert forall i :: 0 <= i < k ==> newest[i] == t[i];
      ReverseBelow(newest, key, key(x));
    }
  }

  /** Reversing keeps every element. */
  lemma ReverseKeeps<T>(s: seq<T>, q: nat)
    requires q < |s|
    ensures s[q] in multiset(Reverse(s))
  {
    assert Reverse(s)[|s| - 1 - q] == s[q];
  }

  /** A lower bound on all keys survives reversal. */
  lemma ReverseBelow<T>(s: seq<T>, key: T -> int, b: int)
    requires forall i :: 0 <= i < |s| ==> b <= key(s[i])
    ensures forall q :: 0 <= q < |Reverse(s)| ==> b <= key(Reverse(s)[q])
  {
    forall q | 0 <= q < |Reverse(s)| ensures b <= key(Reverse(s)[q]) {
      assert Reverse(s)[q] == s[|s| - 1 - q];
    }
  }
}

=== FILE: text.dfy ===
/** The three string primitives the upload and send handlers rely on:
    String.prototype.trim, an ASCII lower-casing, and Node's
    path.extname (posix flavour). */
module Text {
  import opened Base

  /** ECMAScript's WhiteSpace and LineTerminator code points, the set
      String.prototype.trim removes. */
  predicate IsSpace(c: char) {
    || c == '\t' || c == '\U{000B}' || c == '\U{000C}' || c == ' '
    || c == '\U{00A0}' || c == '\U{FEFF}' || c == '\U{1680}'
    || ('\U{2000}' <= c <= '\U{200A}')
    || c == '\U{202F}' || c == '\U{205F}' || c == '\U{3000}'
    || c == '\n' || c == '\r' || c == '\U{2028}' || c == '\U{2029}'
  }

  predicate AllSpace(s: string) {
    forall i :: 0 <= i < |s| ==> IsSpace(s[i])
  }

  /** Length of the run of white space at the start of `s`. */
  function LeadingSpace(s: string): (n: nat)
    ensures n <= |s|
    ensures AllSpace(s[..n])
    ensures n < |s| ==> !IsSpace(s[n])
  {
    if |s| == 0 || !IsSpace(s[0]) then 0
    else
      var k := LeadingSpace(s[1..]);
      assert s[..k + 1] == [s[0]] + s[1..][..k];
      k + 1
  }

  /** Length of the run of white space at the end of `s`. */
  function TrailingSpace(s: string): (n: nat)
    ensures n <= |s|
    ensures AllSpace(s[|s| - n..])
    ensures n < |s| ==> !IsSpace(s[|s| - 1 - n])
  {
    if |s| == 0 || !IsSpace(s[|s| - 1]) then 0
    else
      var t := s[..|s| - 1];
      var k := TrailingSpace(t);
      assert s[|s| - (k + 1)..] == t[|t| - k..] + [s[|s| - 1]];
      k + 1
  }

  /** String.prototype.trim: the result is a slice of `s` whose removed
      prefix and suffix are white space and which neither starts nor ends
      with white space. */
  function Trim(s: string): (r: string)
    ensures |r| <= |s|
    ensures exists a :: 0 <= a <= |s| - |r| && r == s[a..a + |r|]
                        && AllSpace(s[..a]) && AllSpace(s[a + |r|..])
    ensures |r| > 0 ==> !IsSpace(r[0]) && !IsSpace(r[|r| - 1])
  {
    var a := LeadingSpace(s);
    var t := s[a..];
    var b := TrailingSpace(t);
    var r := t[..|t| - b];
    assert r == s[a..a + |r|];
    assert s[a + |r|..] == t[|t| - b..];
    assert |r| > 0 ==> r[0] == s[a] && r[|r| - 1] == t[|t| - 1 - b];
    assert AllSpace(s[..a]) && AllSpace(s[a + |r|..]);
    r
  }

  /** Trimming is idempotent. */
  lemma TrimIdempotent(s: string)
    ensures Trim(Trim(s)) == Trim(s)
  {
    var r := Trim(s);
    if |r| > 0 {
      assert LeadingSpace(r) == 0;
      assert TrailingSpace(r) == 0;
    }
  }

  function LowerChar(c: char): (d: char)
  {
    if 'A' <= c <= 'Z' then (c as int + 32) as char else c
  }

  /** Lower-cases the ASCII letters and keeps every other character. */
  function AsciiLower(s: string): (r: string)
    ensures |r| == |s|
    ensures forall i :: 0 <= i < |s| ==> !('A' <= r[i] <= 'Z')
    ensures forall i :: 0 <= i < |s| && !('A' <= s[i] <= 'Z') ==> r[i] == s[i]
  {
    seq(|s|, i requires 0 <= i < |s| => LowerChar(s[i]))
  }

  /** Lower-casing twice is lower-casing once. */
  lemma AsciiLowerIdempotent(s: string)
    ensures AsciiLower(AsciiLower(s)) == AsciiLower(s)
  {
  }

  /** `c` does not occur in `s`. */
  predicate Lacks(s: string, c: char) {
    forall i :: 0 <= i < |s| ==> s[i] != c
  }

  /** Index just past the last character that is not '/', or 0. */
  function NameEnd(p: string): (e: nat)
    ensures e <= |p|
    ensures forall i :: e <= i < |p| ==> p[i] == '/'
    ensures e > 0 ==> p[e - 1] != '/'
  {
    if |p| == 0 || p[|p| - 1] != '/' then |p| else NameEnd(p[..|p| - 1])
  }

  /** Position of the last occurrence of `c`. */
  function LastIndexOf(s: string, c: char): (r: Option<nat>)
    ensures r.Some? ==> r.value < |s| && s[r.value] == c
    ensures r.Some? ==> Lacks(s[r.value + 1..], c)
    ensures r.None? <==> Lacks(s, c)
  {
    if |s| == 0 then None
    else if s[|s| - 1] == c then Some(|s| - 1)
    else
      var t := s[..|s| - 1];
      var r := LastIndexOf(t, c);
      assert r.Some? ==> s[r.value + 1..] == t[r.value + 1..] + [s[|s| - 1]];
      r
  }

  /** The last path segment, trailing slashes ignored. */
  function BaseName(p: string): (b: string)
    ensures Lacks(b, '/')
    ensures |b| <= NameEnd(p) && b == p[NameEnd(p) - |b|..NameEnd(p)]
    ensures NameEnd(p) - |b| > 0 ==> p[NameEnd(p) - |b| - 1] == '/'
  {
    var q := p[..NameEnd(p)];
    match LastIndexOf(q, '/')
    case None => q
    case Some(k) =>
      assert q[k + 1..] == p[k + 1..NameEnd(p)];
      q[k + 1..]
  }

  /** Where the extension of a path segment starts: at its last '.',
      unless the segment has none, that '.' is its first character, or
      the segment is "..". */
  function ExtStart(b: string): (r: Option<nat>)
    ensures r.Some? ==> 0 < r.value < |b| && b[r.value] == '.'
    ensures r.Some? ==> Lacks(b[r.value + 1..], '.')
    ensures r.Some? <==> !Lacks(b, '.') && !(b[0] == '.' && Lacks(b[1..], '.')) && b != ".."
  {
    match LastIndexOf(b, '.')
    case None => None
    case Some(d) =>
      if d == 0 then
        None
      else if b == ".." then None
      else
        assert b[0] == '.' ==> b[1..][d - 1] == '.';
        Some(d)
  }

  /** A suffix of a text lacking `c` lacks it too. */
  lemma SuffixLacks(s: string, k: nat, c: char)
    requires k <= |s|
    ensures Lacks(s, c) ==> Lacks(s[k..], c)
  {
    if Lacks(s, c) {
      forall i | 0 <= i < |s| - k ensures s[k..][i] != c {
        assert s[k..][i] == s[k + i];
      }
    }
  }

  /** The extension of one path segment: from its last '.' to its end,
      or empty. */
  function SegmentExt(b: string): (r: string)
    ensures |r| <= |b| && r == b[|b| - |r|..]
    ensures r != [] <==> ExtStart(b).Some?
    ensures r != [] ==> r[0] == '.' && Lacks(r[1..], '.')
    ensures Lacks(b, '/') ==> Lacks(r, '/')
  {
    match ExtStart(b)
    case None => []
    case Some(d) =>
      SuffixLacks(b, d, '/');
      assert b[d..][1..] == b[d + 1..];
      b[d..]
  }

  /** Node's path.extname: the extension of the last path segment. */
  function ExtName(p: string): (r: string)
    ensures var b := BaseName(p);
      && |r| <= |b| && r == b[|b| - |r|..]
      && (r != [] <==> ExtStart(b).Some?)
      && (r != [] ==> r[0] == '.' && Lacks(r[1..], '.'))
      && Lacks(r, '/')
  {
    SegmentExt(BaseName(p))
  }
}

=== FILE: timeline.dfy ===
/** The chat page of frontend/src/pages/Chat.jsx as a reducer: how the
    open conversation's message list, the online set and the typing
    labels fold in socket events and local actions, plus the helpers the
    page derives from them (tick status, unread ids, the group-member
    picker, the last-seen label). */
module Timeline {
  import opened Base
  import opened Records
  import Text
  import MessageRoutes
  import Presence

  /** What an expired disappearing medium shows. */
  const ExpiredText: string := "Media expired"

  /** Shown in a typing label when the event carries no name. */
  const SomeoneName: string := "Someone"

  /** The page state the reducer touches. `typing` maps a conversation to
      its label, `None` once typing stops. */
  datatype Client = Client(
    me: UserId,
    selected: Option<ConvId>,
    messages: seq<MessageView>,
    online: set<UserId>,
    typing: map<ConvId, Option<string>>)

  /** A `message_seen` socket emit. */
  datatype Seen = Seen(conversationId: Option<ConvId>, messageIds: seq<MsgId>)

  datatype ClientStep = ClientStep(client: Client, seen: seq<Seen>)

  function ViewIds(ms: seq<MessageView>): (r: seq<MsgId>)
    ensures |r| == |ms| && forall i :: 0 <= i < |ms| ==> r[i] == ms[i].id
  {
    seq(|ms|, i requires 0 <= i < |ms| => ms[i].id)
  }

  predicate HasId(ms: seq<MessageView>, id: MsgId) {
    exists i :: 0 <= i < |ms| && ms[i].id == id
  }

  /** `selectedConv?.id === conversationId` for an event naming a
      conversation. */
  predicate Open(cl: Client, c: ConvId) {
    cl.selected == Some(c)
  }

  // ---------------------------------------------------------------
  // Presence events
  // ---------------------------------------------------------------

  /** `online_users`: the set is replaced by the list's members. */
  function OnOnlineUsers(ids: seq<UserId>): (r: set<UserId>)
    ensures forall u :: u in r <==> u in ids
  {
    set u | u in ids
  }

  /** A status event after a full list is the list with that user added
      or taken out. */
  lemma OnlineUsersThenStatus(ids: seq<UserId>, u: UserId, isOnline: bool)
    ensures OnUserStatus(OnOnlineUsers(ids), u, isOnline)
         == OnOnlineUsers(if isOnline then ids + [u] else RemoveMember(ids, u))
  {
    var a := OnUserStatus(OnOnlineUsers(ids), u, isOnline);
    var b := OnOnlineUsers(if isOnline then ids + [u] else RemoveMember(ids, u));
    assert forall v :: v in a <==> v in b;
  }

  /** `user_status`: the user joins the set when online and leaves it
      when offline. */
  function OnUserStatus(online: set<UserId>, u: UserId, isOnline: bool): (r: set<UserId>)
    ensures u in r <==> isOnline
    ensures forall v :: v != u ==> (v in r <==> v in online)
  {
    if isOnline then online + {u} else online - {u}
  }

  /** Two status events for different users commute. */
  lemma UserStatusCommutes(online: set<UserId>, u: UserId, a: bool, v: UserId, b: bool)
    requires u != v
    ensures OnUserStatus(OnUserStatus(online, u, a), v, b) == OnUserStatus(OnUserStatus(online, v, b), u, a)
  {
    var x := OnUserStatus(OnUserStatus(online, u, a), v, b);
    var y := OnUserStatus(OnUserStatus(online, v, b), u, a);
    assert forall w :: w in x <==> w in y;
  }

  /** `user_typing`: the conversation's label is the sender's name, or
      "Someone", while typing, and cleared otherwise. */
  function OnTyping(typing: map<ConvId, Option<string>>, c: ConvId, userName: string, isTyping: bool)
    : (r: map<ConvId, Option<string>>)
    ensures c in r && (r[c].Some? <==> isTyping)
    ensures isTyping ==> r[c].value != [] && (userName != [] ==> r[c].value == userName)
    ensures isTyping && userName == [] ==> r[c] == Some(SomeoneName)
    ensures forall d :: d != c ==> (d in r <==> d in typing) && (d in typing ==> r[d] == typing[d])
  {
    typing[c := if isTyping then Some(if userName == [] then SomeoneName else userName) else None]
  }

  /** The server relays typing without the typist's name, so every
      typing label a member sees reads "Someone". */
  lemma TypingShowsSomeone(reg: Presence.Registry, st: Store, s: SocketId, c: ConvId, cl: Client, e: Emit)
    requires e in Presence.Typing(reg, st, s, c, true)
    ensures var after := Receive(cl, e.event).client;
      c in after.typing && after.typing[c] == Some(SomeoneName)
  {
    var typist := if s in reg.bound then Some(reg.bound[s]) else None;
    assert e.event == UserTyping(c, typist, [], true);
    NamelessTyping(cl, c, typist);
  }

  /** A typing event without a name labels the conversation "Someone". */
  lemma NamelessTyping(cl: Client, c: ConvId, typist: Option<UserId>)
    ensures var after := Receive(cl, UserTyping(c, typist, [], true)).client;
      c in after.typing && after.typing[c] == Some(SomeoneName)
  {
    assert Receive(cl, UserTyping(c, typist, [], true)).client.typing == OnTyping(cl.typing, c, [], true);
  }

  // ---------------------------------------------------------------
  // Message events
  // ---------------------------------------------------------------

  /** `new_message`: appended when it belongs to the selected
      conversation and its id is not yet shown; in the selected
      conversation it is also reported seen. */
  function OnNewMessage(cl: Client, m: MessageView): (r: ClientStep)
    ensures r.client.(messages := cl.messages) == cl
    ensures cl.selected != m.conversationId ==> r == ClientStep(cl, [])
    ensures cl.selected == m.conversationId ==>
      && r.seen == [Seen(m.conversationId, [m.id])]
      && (HasId(cl.messages, m.id) ==> r.client.messages == cl.messages)
      && (!HasId(cl.messages, m.id) ==> r.client.messages == cl.messages + [m])
  {
    if cl.selected == m.conversationId then
      var ms := if HasId(cl.messages, m.id) then cl.messages else cl.messages + [m];
      ClientStep(cl.(messages := ms), [Seen(m.conversationId, [m.id])])
    else ClientStep(cl, [])
  }

  /** A repeated `new_message` changes nothing further. */
  lemma NewMessageIdempotent(cl: Client, m: MessageView)
    ensures OnNewMessage(OnNewMessage(cl, m).client, m).client == OnNewMessage(cl, m).client
  {
    var once := OnNewMessage(cl, m).client;
    if cl.selected == m.conversationId && !HasId(cl.messages, m.id) {
      assert once.messages[|cl.messages|].id == m.id;
    }
  }

  /** `new_message` never puts a second copy of an id on the list. */
  lemma NewMessageKeepsIdsUnique(cl: Client, m: MessageView)
    requires NoDup(ViewIds(cl.messages))
    ensures NoDup(ViewIds(OnNewMessage(cl, m).client.messages))
  {
    var ms := OnNewMessage(cl, m).client.messages;
    if ms != cl.messages {
      assert ViewIds(ms) == ViewIds(cl.messages) + [m.id];
      assert m.id !in ViewIds(cl.messages);
    }
  }

  /** The `messages_read` update of one message. */
  function ReadMark(m: MessageView, reader: UserId, ids: Option<seq<MsgId>>): (r: MessageView)
    ensures r.(readBy := m.readBy) == m
    ensures m.isMine && (ids.None? || m.id in ids.value) ==> r.readBy == m.readBy + [reader]
    ensures !(m.isMine && (ids.None? || m.id in ids.value)) ==> r == m
  {
    if m.isMine && (ids.None? || m.id in ids.value) then m.(readBy := m.readBy + [reader]) else m
  }

  /** `messages_read`: in the selected conversation, every own message
      the event names (all of them when it names none) gains a receipt
      for the reader. */
  function OnMessagesRead(cl: Client, c: ConvId, reader: UserId, ids: Option<seq<MsgId>>): (r: Client)
    ensures r.(messages := cl.messages) == cl
    ensures |r.messages| == |cl.messages|
    ensures !Open(cl, c) ==> r == cl
    ensures Open(cl, c) ==> forall i :: 0 <= i < |cl.messages| ==> r.messages[i] == ReadMark(cl.messages[i], reader, ids)
  {
    if Open(cl, c) then
      cl.(messages := seq(|cl.messages|, i requires 0 <= i < |cl.messages| => ReadMark(cl.messages[i], reader, ids)))
    else cl
  }

  /** Replaces the message with the given id using `f`; the rest keeps its
      place. */
  function MapId(ms: seq<MessageView>, id: MsgId, f: MessageView -> MessageView): (r: seq<MessageView>)
    ensures |r| == |ms|
    ensures forall i :: 0 <= i < |ms| ==> r[i] == (if ms[i].id == id then f(ms[i]) else ms[i])
  {
    seq(|ms|, i requires 0 <= i < |ms| => if ms[i].id == id then f(ms[i]) else ms[i])
  }

  function Tombstone(text: string): MessageView -> MessageView {
    (m: MessageView) => m.(deleted := true, text := text, fileUrl := [])
  }

  function Edited(text: string): MessageView -> MessageView {
    (m: MessageView) => m.(text := text, edited := true)
  }

  function Reacted(reactions: seq<Reaction>): MessageView -> MessageView {
    (m: MessageView) => m.(reactions := reactions)
  }

  function Viewed(): MessageView -> MessageView {
    (m: MessageView) => m.(viewed := true)
  }

  /** `message_deleted`: in the selected conversation the message becomes
      a tombstone in place. */
  function OnMessageDeleted(cl: Client, id: MsgId, c: ConvId): (r: Client)
    ensures r.(messages := cl.messages) == cl && |r.messages| == |cl.messages|
    ensures !Open(cl, c) ==> r == cl
    ensures Open(cl, c) ==> forall i :: 0 <= i < |cl.messages| ==>
      (cl.messages[i].id == id ==>
         r.messages[i] == cl.messages[i].(deleted := true, text := MessageRoutes.DeletedText, fileUrl := []))
      && (cl.messages[i].id != id ==> r.messages[i] == cl.messages[i])
  {
    if Open(cl, c) then cl.(messages := MapId(cl.messages, id, Tombstone(MessageRoutes.DeletedText))) else cl
  }

  /** `message_edited`: the message takes the new text and the edited
      mark; a tombstone is edited like any other message. */
  function OnMessageEdited(cl: Client, id: MsgId, c: ConvId, text: string): (r: Client)
    ensures r.(messages := cl.messages) == cl && |r.messages| == |cl.messages|
    ensures !Open(cl, c) ==> r == cl
    ensures Open(cl, c) ==> forall i :: 0 <= i < |cl.messages| ==>
      (cl.messages[i].id == id ==> r.messages[i] == cl.messages[i].(text := text, edited := true))
      && (cl.messages[i].id != id ==> r.messages[i] == cl.messages[i])
  {
    if Open(cl, c) then cl.(messages := MapId(cl.messages, id, Edited(text))) else cl
  }

  /** `message_reaction`: the message's reactions are replaced by the
      event's list. */
  function OnMessageReaction(cl: Client, id: MsgId, c: ConvId, reactions: seq<Reaction>): (r: Client)
    ensures r.(messages := cl.messages) == cl && |r.messages| == |cl.messages|
    ensures !Open(cl, c) ==> r == cl
    ensures Open(cl, c) ==> forall i :: 0 <= i < |cl.messages| ==>
      (cl.messages[i].id == id ==> r.messages[i] == cl.messages[i].(reactions := reactions))
      && (cl.messages[i].id != id ==> r.messages[i] == cl.messages[i])
  {
    if Open(cl, c) then cl.(messages := MapId(cl.messages, id, Reacted(reactions))) else cl
  }

  /** A repeated `message_reaction` changes nothing further. */
  lemma MessageReactionIdempotent(cl: Client, id: MsgId, c: ConvId, reactions: seq<Reaction>)
    ensures var once := OnMessageReaction(cl, id, c, reactions);
      OnMessageReaction(once, id, c, reactions) == once
  {
    var once := OnMessageReaction(cl, id, c, reactions);
    var twice := OnMessageReaction(once, id, c, reactions);
    assert twice.messages == once.messages;
  }

  /** `media_viewed`: marks the message viewed, whichever conversation is
      open. */
  function OnMediaViewed(cl: Client, id: MsgId): (r: Client)
    ensures r.(messages := cl.messages) == cl && |r.messages| == |cl.messages|
    ensures forall i :: 0 <= i < |cl.messages| ==>
      (cl.messages[i].id == id ==> r.messages[i] == cl.messages[i].(viewed := true))
      && (cl.messages[i].id != id ==> r.messages[i] == cl.messages[i])
  {
    cl.(messages := MapId(cl.messages, id, Viewed()))
  }

  /** A repeated `media_viewed` changes nothing further, and the list
      keeps its ids in place. */
  lemma MediaViewedIdempotent(cl: Client, id: MsgId)
    ensures var once := OnMediaViewed(cl, id);
      && OnMediaViewed(once, id) == once
      && ViewIds(once.messages) == ViewIds(cl.messages)
  {
    var once := OnMediaViewed(cl, id);
    assert OnMediaViewed(once, id).messages == once.messages;
    MapIdKeepsIds(cl.messages, id, Viewed());
  }

  /** `media_expired`: in the selected conversation the message becomes
      a tombstone reading "Media expired". */
  function OnMediaExpired(cl: Client, id: MsgId, c: ConvId): (r: Client)
    ensures r.(messages := cl.messages) == cl && |r.messages| == |cl.messages|
    ensures !Open(cl, c) ==> r == cl
    ensures Open(cl, c) ==> forall i :: 0 <= i < |cl.messages| ==>
      (cl.messages[i].id == id ==>
         r.messages[i] == cl.messages[i].(deleted := true, text := ExpiredText, fileUrl := []))
      && (cl.messages[i].id != id ==> r.messages[i] == cl.messages[i])
  {
    if Open(cl, c) then cl.(messages := MapId(cl.messages, id, Tombstone(ExpiredText))) else cl
  }

  /** An id-keyed update keeps every id in its place. */
  lemma MapIdKeepsIds(ms: seq<MessageView>, id: MsgId, f: MessageView -> MessageView)
    requires forall m :: f(m).id == m.id
    ensures ViewIds(MapId(ms, id, f)) == ViewIds(ms)
  {
    var r := MapId(ms, id, f);
    forall i | 0 <= i < |ms| ensures ViewIds(r)[i] == ViewIds(ms)[i] {
      assert r[i].id == ms[i].id;
    }
  }

  /** A live edit shows what a fetch after the server's edit would show,
      unless the message is a tombstone: then the live copy shows the
      new text while a fetch keeps the deleted text. */
  lemma EditedAgreesWithFetch(cl: Client, k: nat, m: Message, text: string, now: Time)
    requires k < |cl.messages| && cl.messages[k] == MessageRoutes.ViewFor(m, cl.me)
    requires Open(cl, m.conversationId)
    ensures var live := OnMessageEdited(cl, m.id, m.conversationId, text).messages[k];
      var fetched := MessageRoutes.ViewFor(m.(text := text, edited := true, editedAt := Some(now)), cl.me);
      && (!m.deleted ==> live == fetched)
      && (m.deleted ==> live.text == text && fetched.text == MessageRoutes.DeletedText)
  {
  }

  /** A repeated `message_edited` changes nothing further, and an edit
      keeps the list's ids in place. */
  lemma MessageEditedIdempotent(cl: Client, id: MsgId, c: ConvId, text: string)
    ensures var once := OnMessageEdited(cl, id, c, text);
      && OnMessageEdited(once, id, c, text) == once
      && ViewIds(once.messages) == ViewIds(cl.messages)
  {
    var once := OnMessageEdited(cl, id, c, text);
    var twice := OnMessageEdited(once, id, c, text);
    assert twice.messages == once.messages;
    if Open(cl, c) {
      MapIdKeepsIds(cl.messages, id, Edited(text));
    }
  }

  /** A repeated `media_expired` changes nothing further, and expiry
      keeps the list's ids in place. */
  lemma MediaExpiredIdempotent(cl: Client, id: MsgId, c: ConvId)
    ensures var once := OnMediaExpired(cl, id, c);
      && OnMediaExpired(once, id, c) == once
      && ViewIds(once.messages) == ViewIds(cl.messages)
  {
    var once := OnMediaExpired(cl, id, c);
    var twice := OnMediaExpired(once, id, c);
    assert twice.messages == once.messages;
    if Open(cl, c) {
      MapIdKeepsIds(cl.messages, id, Tombstone(ExpiredText));
    }
  }

  /** The socket listener: one server event folded into the page state. */
  function Receive(cl: Client, ev: Event): (r: ClientStep)
    ensures r.client.me == cl.me && r.client.selected == cl.selected
    ensures !ev.NewMessage? ==> r.seen == []
    ensures !ev.OnlineUsers? && !ev.UserStatus? ==> r.client.online == cl.online
    ensures !ev.UserTyping? ==> r.client.typing == cl.typing
    ensures ev.UserStatus? || ev.OnlineUsers? || ev.UserTyping? ==> r.client.messages == cl.messages
  {
    match ev
    case NewMessage(m) => OnNewMessage(cl, m)
    case MessagesRead(c, reader, ids) => ClientStep(OnMessagesRead(cl, c, reader, ids), [])
    case MessageDeleted(id, c) => ClientStep(OnMessageDeleted(cl, id, c), [])
    case MessageEdited(id, c, text) => ClientStep(OnMessageEdited(cl, id, c, text), [])
    case MessageReaction(id, c, rs) => ClientStep(OnMessageReaction(cl, id, c, rs), [])
    case MediaViewed(id) => ClientStep(OnMediaViewed(cl, id), [])
    case MediaExpired(id, c) => ClientStep(OnMediaExpired(cl, id, c), [])
    case UserStatus(u, isOnline, _) => ClientStep(cl.(online := OnUserStatus(cl.online, u, isOnline)), [])
    case OnlineUsers(ids) => ClientStep(cl.(online := OnOnlineUsers(ids)), [])
    case UserTyping(c, _, userName, isTyping) =>
      ClientStep(cl.(typing := OnTyping(cl.typing, c, userName, isTyping)), [])
  }

  // ---------------------------------------------------------------
  // Local actions
  // ---------------------------------------------------------------

  /** `deleteMessage` once its request returns: delete-for-everyone
      tombstones the message in place, delete-for-me drops every copy of
      it. A request that fails to reach the server changes nothing; an
      error status from the server is not checked. */
  function LocalDelete(cl: Client, id: MsgId, forEveryone: bool, unreachable: bool): (r: Client)
    ensures r.(messages := cl.messages) == cl
    ensures unreachable ==> r == cl
    ensures !unreachable && forEveryone ==>
      |r.messages| == |cl.messages| && forall i :: 0 <= i < |cl.messages| ==>
        r.messages[i] == (if cl.messages[i].id == id then Tombstone(MessageRoutes.DeletedText)(cl.messages[i]) else cl.messages[i])
    ensures !unreachable && !forEveryone ==>
      && !HasId(r.messages, id)
      && (forall i :: 0 <= i < |cl.messages| && cl.messages[i].id != id ==> cl.messages[i] in r.messages)
      && (forall i :: 0 <= i < |r.messages| ==> r.messages[i] in cl.messages)
  {
    if unreachable then cl
    else if forEveryone then cl.(messages := MapId(cl.messages, id, Tombstone(MessageRoutes.DeletedText)))
    else cl.(messages := DropId(cl.messages, id))
  }

  function NotId(id: MsgId): MessageView -> bool {
    (m: MessageView) => m.id != id
  }

  /** `prev.filter(m => m.id !== id)`: every message with that id goes,
      every other one stays. */
  function DropId(ms: seq<MessageView>, id: MsgId): (r: seq<MessageView>)
    ensures !HasId(r, id)
    ensures forall i :: 0 <= i < |ms| && ms[i].id != id ==> ms[i] in r
    ensures forall i :: 0 <= i < |r| ==> r[i] in ms
  {
    var r := Filter(ms, NotId(id));
    assert forall i :: 0 <= i < |r| ==> r[i] in ms by {
      forall i | 0 <= i < |r| ensures r[i] in ms {
        assert r[i] in multiset(r);
        FilterMember(ms, NotId(id), r[i]);
      }
    }
    assert forall i :: 0 <= i < |ms| && ms[i].id != id ==> ms[i] in r by {
      forall i | 0 <= i < |ms| && ms[i].id != id ensures ms[i] in r {
        FilterKeeps(ms, NotId(id), i);
      }
    }
    r
  }

  /** Delete-for-me keeps the other messages in their order. */
  lemma LocalDeleteKeepsOrder(cl: Client, id: MsgId)
    ensures LocalDelete(cl, id, false, false).messages == Filter(cl.messages, NotId(id))
    ensures Filter(LocalDelete(cl, id, false, false).messages, NotId(id)) == Filter(cl.messages, NotId(id))
  {
    FilterTwice(cl.messages, NotId(id));
  }

  /** `selectConversation`: the conversation becomes the open one and the
      list is emptied until its fetch settles (see `Loaded`). */
  function SelectConversation(cl: Client, c: ConvId): (r: Client)
    ensures Open(r, c) && r.messages == []
    ensures r.(selected := cl.selected, messages := cl.messages) == cl
  {
    cl.(selected := Some(c), messages := [])
  }

  /** A local send: the page state after it and the conversation a
      `typing` emit with `isTyping: false` is sent for, if any. */
  datatype SendStep = SendStep(client: Client, stopTyping: Option<ConvId>)

  /** `sendMessage` before its request: the conversation the message is
      posted to, when there is text to send and a conversation is open. */
  function SendTarget(cl: Client, text: string): (r: Option<ConvId>)
    ensures r.Some? <==> Text.Trim(text) != [] && cl.selected.Some?
    ensures r.Some? ==> Open(cl, r.value)
  {
    if Text.Trim(text) == [] then None else cl.selected
  }

  /** `sendMessage` once the request posted to `target` settles, in
      whatever state the page is then: the reply is appended to the list
      shown at that moment and typing is stopped for `target`. `reply`
      is `None` when the request is rejected or its body is not JSON; the
      catch then leaves the page as it is and nothing is emitted. */
  function SendSettled(cl: Client, target: ConvId, reply: Option<MessageView>): (r: SendStep)
    ensures r.client.(messages := cl.messages) == cl
    ensures reply.None? ==> r == SendStep(cl, None)
    ensures reply.Some? ==> r.client.messages == cl.messages + [reply.value] && r.stopTyping == Some(target)
  {
    match reply
    case None => SendStep(cl, None)
    case Some(v) => SendStep(cl.(messages := cl.messages + [v]), Some(target))
  }

  /** A send whose reply arrives before anything else happens on the page. */
  function LocalSend(cl: Client, text: string, reply: Option<MessageView>): (r: SendStep)
    ensures r.client.(messages := cl.messages) == cl
    ensures Text.Trim(text) == [] || cl.selected.None? || reply.None? ==> r == SendStep(cl, None)
    ensures Text.Trim(text) != [] && cl.selected.Some? && reply.Some? ==>
      r.client.messages == cl.messages + [reply.value] && r.stopTyping == cl.selected
  {
    match SendTarget(cl, text)
    case None => SendStep(cl, None)
    case Some(c) => SendSettled(cl, c, reply)
  }

  /** The sender's own copy is on the list once the reply is appended, so
      an echo of the same message as a `new_message` adds nothing. */
  lemma SentNotDuplicated(cl: Client, text: string, reply: MessageView, echo: MessageView)
    requires Text.Trim(text) != [] && cl.selected.Some?
    requires echo.id == reply.id
    ensures var sent := LocalSend(cl, text, Some(reply)).client;
      OnNewMessage(sent, echo).client.messages == sent.messages
  {
    var sent := LocalSend(cl, text, Some(reply)).client;
    assert sent.messages[|cl.messages|].id == echo.id;
  }

  /** A reply that settles after the user opened another conversation
      lands on that conversation's list, while typing is stopped for the
      conversation the message went to. */
  lemma SendSettlesAfterSwitch(cl: Client, text: string, d: ConvId, reply: MessageView)
    requires SendTarget(cl, text).Some? && !Open(cl, d)
    ensures var c := SendTarget(cl, text).value;
      var r := SendSettled(SelectConversation(cl, d), c, Some(reply));
      && Open(r.client, d) && r.client.messages == [reply]
      && r.stopTyping == Some(c) && c != d
  {
  }

  /** `handleFileUpload` before its request: the conversation the file is
      posted to, when a file is chosen and a conversation is open. */
  function UploadTarget(cl: Client, hasFile: bool): (r: Option<ConvId>)
    ensures r.Some? <==> hasFile && cl.selected.Some?
    ensures r.Some? ==> Open(cl, r.value)
  {
    if hasFile then cl.selected else None
  }

  /** `handleFileUpload` once its request settles: like a send, the reply
      goes onto the list shown at that moment, with no typing emit. */
  function UploadSettled(cl: Client, reply: Option<MessageView>): (r: Client)
    ensures r.(messages := cl.messages) == cl
    ensures reply.None? ==> r == cl
    ensures reply.Some? ==> r.messages == cl.messages + [reply.value]
  {
    match reply
    case None => cl
    case Some(v) => cl.(messages := cl.messages + [v])
  }

  /** An upload whose reply arrives before anything else happens on the page. */
  function LocalUpload(cl: Client, hasFile: bool, reply: Option<MessageView>): (r: Client)
    ensures r.(messages := cl.messages) == cl
    ensures !hasFile || cl.selected.None? || reply.None? ==> r == cl
    ensures hasFile && cl.selected.Some? && reply.Some? ==> r.messages == cl.messages + [reply.value]
  {
    if UploadTarget(cl, hasFile).None? then cl else UploadSettled(cl, reply)
  }

  /** As for a send, the uploader's own copy makes the `new_message` echo
      of the upload add nothing. */
  lemma UploadNotDuplicated(cl: Client, reply: MessageView, echo: MessageView)
    requires cl.selected.Some? && echo.id == reply.id
    ensures var sent := LocalUpload(cl, true, Some(reply));
      OnNewMessage(sent, echo).client.messages == sent.messages
  {
    var sent := LocalUpload(cl, true, Some(reply));
    assert sent.messages[|cl.messages|].id == echo.id;
  }

  function NotSeenBy(me: UserId): MessageView -> bool {
    (m: MessageView) => !m.isMine && me !in m.readBy
  }

  /** The ids `fetchMessages` reports seen: those of the loaded messages
      the user did not send and has no read receipt on, in page order. */
  function UnreadIds(page: seq<MessageView>, me: UserId): (r: seq<MsgId>)
    ensures r == ViewIds(Filter(page, NotSeenBy(me)))
    ensures forall i :: 0 <= i < |page| && !page[i].isMine && me !in page[i].readBy ==> page[i].id in r
  {
    var f := Filter(page, NotSeenBy(me));
    FilterContents(page, NotSeenBy(me));
    assert forall i :: 0 <= i < |page| && NotSeenBy(me)(page[i]) ==> page[i] in multiset(f);
    ViewIds(f)
  }

  /** `fetchMessages` once its request settles: the list is replaced by
      the page and the unread ids, if any, are reported seen. `page` is
      `None` when the request is rejected or its body is not JSON; the
      catch then leaves the page as it is and reports nothing. */
  function Loaded(cl: Client, c: ConvId, page: Option<seq<MessageView>>): (r: ClientStep)
    ensures page.None? ==> r == ClientStep(cl, [])
    ensures page.Some? ==> r.client == cl.(messages := page.value)
    ensures page.Some? ==>
      r.seen == (if UnreadIds(page.value, cl.me) == [] then [] else [Seen(Some(c), UnreadIds(page.value, cl.me))])
    ensures r.seen != [] <==>
      page.Some? && exists i :: 0 <= i < |page.value| && !page.value[i].isMine && cl.me !in page.value[i].readBy
  {
    match page
    case None => ClientStep(cl, [])
    case Some(views) =>
      var ids := UnreadIds(views, cl.me);
      if ids == [] then ClientStep(cl.(messages := views), [])
      else
        var f := Filter(views, NotSeenBy(cl.me));
        assert NotSeenBy(cl.me)(f[0]);
        FilterContents(views, NotSeenBy(cl.me));
        assert f[0] in multiset(views);
        ClientStep(cl.(messages := views), [Seen(Some(c), ids)])
  }

  /** Opening a conversation shows its fetched page, or an empty list
      when the fetch fails. */
  lemma SelectThenLoad(cl: Client, d: ConvId, page: Option<seq<MessageView>>)
    ensures var r := Loaded(SelectConversation(cl, d), d, page).client;
      Open(r, d) && r.messages == (if page.Some? then page.value else [])
  {
  }

  /** A page fetched right after the viewer marked the conversation read
      reports nothing seen. */
  lemma NothingSeenAfterMarkRead(st: Store, c: ConvId, viewer: UserId, before: Option<Time>,
                                 limit: Option<int>, cl: Client)
    requires cl.me == viewer
    ensures var read := MessageRoutes.MarkRead(st, c, viewer).store;
      var r := MessageRoutes.FetchMessages(read, c, viewer, before, limit);
      r.reply.Page? ==> Loaded(cl, c, Some(r.reply.messages)).seen == []
  {
    var read := MessageRoutes.MarkRead(st, c, viewer).store;
    var r := MessageRoutes.FetchMessages(read, c, viewer, before, limit);
    if r.reply.Page? {
      var lim := if limit.Some? then limit.value else MessageRoutes.DefaultLimit;
      var page := MessageRoutes.PageOf(read.msgs, c, viewer, before, lim);
      ReadPageSeen(st, c, viewer, before, lim);
      assert r.reply.messages == MessageRoutes.Views(page, viewer);
      SeenPageLoadsQuietly(cl, c, page);
    }
  }

  /** Loading the views of messages the user sent or has read reports
      nothing seen. */
  lemma SeenPageLoadsQuietly(cl: Client, c: ConvId, page: seq<Message>)
    requires forall i :: 0 <= i < |page| ==> page[i].sender == cl.me || cl.me in page[i].readBy
    ensures Loaded(cl, c, Some(MessageRoutes.Views(page, cl.me))).seen == []
  {
    var views := MessageRoutes.Views(page, cl.me);
    assert forall i :: 0 <= i < |views| ==> views[i].isMine || cl.me in views[i].readBy;
  }

  /** Every message on a page fetched right after mark-read is the
      viewer's own or already read by them. */
  lemma ReadPageSeen(st: Store, c: ConvId, viewer: UserId, before: Option<Time>, lim: int)
    ensures var read := MessageRoutes.MarkRead(st, c, viewer).store;
      var page := MessageRoutes.PageOf(read.msgs, c, viewer, before, lim);
      forall i :: 0 <= i < |page| ==> page[i].sender == viewer || viewer in page[i].readBy
  {
    var all := MessageRoutes.ReadAll(st.msgs, c, viewer);
    assert MessageRoutes.MarkRead(st, c, viewer).store.msgs == all;
    var page := MessageRoutes.PageOf(all, c, viewer, before, lim);
    MessageRoutes.PageIsListed(all, c, viewer, before, lim);
    forall i | 0 <= i < |page| ensures page[i].sender == viewer || viewer in page[i].readBy {
      ReadAllSeen(st.msgs, c, viewer, page[i]);
    }
  }

  /** After mark-read every message of the conversation is the viewer's
      own or carries their receipt. */
  lemma ReadAllSeen(msgs: seq<Message>, c: ConvId, viewer: UserId, x: Message)
    requires x in multiset(MessageRoutes.ReadAll(msgs, c, viewer)) && x.conversationId == c
    ensures x.sender == viewer || viewer in x.readBy
  {
    var all := MessageRoutes.ReadAll(msgs, c, viewer);
    var q :| 0 <= q < |all| && all[q] == x;
    assert all[q] == MessageRoutes.ReadOne(msgs[q], c, viewer);
  }

  // ---------------------------------------------------------------
  // Derived display state
  // ---------------------------------------------------------------

  datatype TickMark = SentTick | DeliveredTick | ReadTick

  function Rank(t: TickMark): nat {
    match t
    case SentTick => 0
    case DeliveredTick => 1
    case ReadTick => 2
  }

  /** The ticks under a message: only on the user's own, undeleted
      messages; read once anyone read it, else delivered once anyone
      received it, else sent. */
  function TickStatus(m: MessageView): (r: Option<TickMark>)
    ensures r.None? <==> !m.isMine || m.deleted
    ensures r == Some(ReadTick) <==> m.isMine && !m.deleted && |m.readBy| > 0
    ensures r == Some(DeliveredTick) <==> m.isMine && !m.deleted && |m.readBy| == 0 && |m.deliveredTo| > 0
  {
    if !m.isMine || m.deleted then None
    else if |m.readBy| > 0 then Some(ReadTick)
    else if |m.deliveredTo| > 0 then Some(DeliveredTick)
    else Some(SentTick)
  }

  /** Tick status never goes down when receipts are appended. */
  lemma TickMonotone(m: MessageView, moreRead: seq<UserId>, moreDelivered: seq<UserId>)
    requires TickStatus(m).Some?
    ensures var n := m.(readBy := m.readBy + moreRead, deliveredTo := m.deliveredTo + moreDelivered);
      TickStatus(n).Some? && Rank(TickStatus(m).value) <= Rank(TickStatus(n).value)
  {
  }

  /** A `messages_read` event never lowers a tick, and raises every own
      undeleted message it covers to read. */
  lemma MessagesReadRaisesTicks(cl: Client, c: ConvId, reader: UserId, ids: Option<seq<MsgId>>, i: nat)
    requires i < |cl.messages| && TickStatus(cl.messages[i]).Some?
    ensures var after := OnMessagesRead(cl, c, reader, ids).messages[i];
      && TickStatus(after).Some?
      && Rank(TickStatus(cl.messages[i]).value) <= Rank(TickStatus(after).value)
      && (Open(cl, c) && (ids.None? || cl.messages[i].id in ids.value) ==> TickStatus(after) == Some(ReadTick))
  {
    var m := cl.messages[i];
    if Open(cl, c) {
      var after := OnMessagesRead(cl, c, reader, ids).messages[i];
      assert after == ReadMark(m, reader, ids);
      if m.isMine && (ids.None? || m.id in ids.value) {
        TickMonotone(m, [reader], []);
        assert after == m.(readBy := m.readBy + [reader], deliveredTo := m.deliveredTo + []);
      }
    }
  }

  /** The server's mark-read reaches the sender as an event that turns the
      ticks of all their own undeleted messages in that conversation to
      read, when the conversation is open. */
  lemma MarkReadTurnsTicksRead(st: Store, c: ConvId, reader: UserId, cl: Client, i: nat)
    requires Open(cl, c) && i < |cl.messages| && TickStatus(cl.messages[i]).Some?
    requires c in ConvIds(st.convs)
    requires cl.me != reader && cl.me in st.convs[FindConv(st, c).value].participants
    ensures var out := MessageRoutes.MarkRead(st, c, reader).out;
      && Emit(ToUser(cl.me), MessagesRead(c, reader, None)) in out
      && TickStatus(Receive(cl, MessagesRead(c, reader, None)).client.messages[i]) == Some(ReadTick)
  {
    MessagesReadRaisesTicks(cl, c, reader, None, i);
  }

  /** What a deleted message reads as is the same whether the client
      learnt of it from the server's list or from the delete event. */
  lemma TombstonesAgree(st: Store, id: MsgId, requester: UserId, cl: Client, c: ConvId, i: nat)
    requires id in MsgIds(st.msgs) && Open(cl, c)
    requires st.msgs[FindMessage(st, id).value].sender == requester
    requires i < |cl.messages| && cl.messages[i].id == id
    ensures var k := FindMessage(st, id).value;
      var stored := MessageRoutes.Delete(st, id, requester, true).store.msgs[k];
      var shown := OnMessageDeleted(cl, id, c).messages[i];
      && MessageRoutes.ViewFor(stored, cl.me).text == shown.text
      && MessageRoutes.ViewFor(stored, cl.me).fileUrl == shown.fileUrl
      && shown.deleted && stored.deleted
  {
  }

  // ---------------------------------------------------------------
  // Group-member picker
  // ---------------------------------------------------------------

  function NotMember(u: UserId): UserId -> bool {
    (x: UserId) => x != u
  }

  /** Clicking a user in the picker: removes them if picked, else
      appends them. */
  function ToggleMember(picked: seq<UserId>, u: UserId): (r: seq<UserId>)
    ensures u in r <==> u !in picked
    ensures forall v :: v != u ==> (v in r <==> v in picked)
    ensures u !in picked ==> r == picked + [u]
  {
    if u in picked then RemoveMember(picked, u) else picked + [u]
  }

  /** The chip's remove button: drops every entry of the user. */
  function RemoveMember(picked: seq<UserId>, u: UserId): (r: seq<UserId>)
    ensures u !in r
    ensures forall v :: v != u ==> (v in r <==> v in picked)
    ensures NoDup(picked) ==> NoDup(r)
  {
    var r := Filter(picked, NotMember(u));
    FilterContents(picked, NotMember(u));
    assert forall v :: v in r ==> v in multiset(picked);
    assert forall i :: 0 <= i < |picked| && picked[i] != u ==> picked[i] in multiset(r);
    assert NoDup(picked) ==> NoDup(r) by {
      if NoDup(picked) {
        forall i, j | 0 <= i < j < |r| ensures r[i] != r[j] {
          FilterOrder(picked, NotMember(u), i, j);
        }
      }
    }
    r
  }

  /** Clicking the same user twice restores who is picked: exactly the
      list when they were not picked, and otherwise the list with them
      moved to the end. */
  lemma ToggleMemberTwice(picked: seq<UserId>, u: UserId)
    ensures var twice := ToggleMember(ToggleMember(picked, u), u);
      && (forall v :: v in twice <==> v in picked)
      && (u !in picked ==> twice == picked)
      && (u in picked ==> twice == RemoveMember(picked, u) + [u])
  {
    if u !in picked {
      FilterSnoc(picked, u, NotMember(u));
      FilterAllKept(picked, NotMember(u));
    }
  }

  // ---------------------------------------------------------------
  // Last-seen label
  // ---------------------------------------------------------------

  datatype LastSeen = Never | JustNow | MinutesAgo(minutes: nat) | TodayAt(at: Time) | OnDate(at: Time)

  function LabelRank(l: LastSeen): nat {
    match l
    case Never => 0
    case JustNow => 1
    case MinutesAgo(_) => 2
    case TodayAt(_) => 3
    case OnDate(_) => 4
  }

  /** `formatLastSeen` on the millisecond difference `now - lastSeen`;
      the clock text itself is left to the locale. */
  function LastSeenLabel(lastSeen: Option<Time>, now: int): (r: LastSeen)
    ensures lastSeen.None? <==> r == Never
    ensures lastSeen.Some? ==> var diff := now - lastSeen.value;
      && (r == JustNow <==> diff < 60000)
      && (r.MinutesAgo? <==> 60000 <= diff < 3600000)
      && (r.MinutesAgo? ==> 1 <= r.minutes <= 59 && r.minutes * 60000 <= diff < (r.minutes + 1) * 60000)
      && (r.TodayAt? <==> 3600000 <= diff < 86400000)
      && (r.OnDate? <==> 86400000 <= diff)
  {
    match lastSeen
    case None => Never
    case Some(t) =>
      var diff := now - t;
      if diff < 60000 then JustNow
      else if diff < 3600000 then MinutesAgo(diff / 60000)
      else if diff < 86400000 then TodayAt(t)
      else OnDate(t)
  }

  /** As time passes the label only moves to coarser buckets, and the
      minute count never goes down. */
  lemma LastSeenMonotone(lastSeen: Option<Time>, now1: int, now2: int)
    requires now1 <= now2
    ensures LabelRank(LastSeenLabel(lastSeen, now1)) <= LabelRank(LastSeenLabel(lastSeen, now2))
    ensures LastSeenLabel(lastSeen, now1).MinutesAgo? && LastSeenLabel(lastSeen, now2).MinutesAgo? ==>
      LastSeenLabel(lastSeen, now1).minutes <= LastSeenLabel(lastSeen, now2).minutes
  {
    if lastSeen.Some? {
      var a := LastSeenLabel(lastSeen, now1);
      var b := LastSeenLabel(lastSeen, now2);
      if a.MinutesAgo? && b.MinutesAgo? {
        assert a.minutes * 60000 <= now1 - lastSeen.value;
        assert now2 - lastSeen.value < (b.minutes + 1) * 60000;
      }
    }
  }
}
